=== FILE: README.md ===
# templates2js in Dafny

A model of the Grunt multi-task `templates2js` (`tasks/templates2js.js`),
which turns HTML templates into JavaScript or CoffeeScript source. Every
template becomes one assignment `namespace["key"] = "…";`. The key is the
template's path relative to `base`. The value is the template text, escaped
so that it can sit between two quote characters. The assignments of one
destination are joined with line breaks and wrapped in an optional header,
the prefix, the namespace declaration `var namespace = {};`, and the suffix.

The model is organised as follows:

- `results.dfy` (`Results`): `Option` and `Result`.
- `escape.dfy` (`Escaping`): `escapeContent` as the three global
  replacements the source chains together. It also has a one-pass reference
  escaper that says what each input character becomes, and the proof that
  the two agree.
- `literal.dfy` (`JsLiteral`): an evaluator for the string literals and `+`
  concatenations that the escaper emits. It follows section 11.8.4 (String
  Literals) of ECMA-262 6th edition. A raw line terminator inside a literal
  is an error.
- `roundtrip.dfy` (`RoundTrip`): when evaluating the escaped literal gives
  the template back, and when it gives nothing. This covers the CoffeeScript
  path, where the global indent is the word `undefined`.
- `paths.dfy` (`Paths`): `normalizePath` and the key of a source file.
- `camelcase.dfy` (`CamelCase`): `camelCased`.
- `entries.dfy` (`Entries`): the options, content preparation (`process`,
  `htmlmin`), `compileTemplate` and `compileCoffeeTemplate`. It also has a
  reader that parses a generated assignment back into its key and value.
- `bundle.dfy` (`Bundle`): the Grunt task body. This covers the source filter, key
  derivation, dispatch on `target`, the join, the namespace declaration, the
  final concatenation, and the run over all destinations.
- `example.dfy` (`Example`): two plain templates under the default options,
  compiled end to end.

The collaborators that compilation calls are fields of `Entries.Host`. The
exceptions are `grunt.file.write`, which is the `written` list of
`Bundle.RunOutcome`, and the `grunt.log` calls, which are left out:

- `grunt.file.exists` and `grunt.file.read`
- `path.relative`
- `grunt.template.process`, called with an options object: `{}` when
  `process` is `true`, the user's object otherwise
- the html minifier, whose exception is a `Failure` result
- `path.sep`
- `grunt.util.normalizelf('\n')`

The Grunt task's fatal stops are a `Failure` value:

- `grunt.warn` after the minifier throws
- `grunt.fail.fatal` on an unknown target
- the `TypeError` raised when `camelCased` is applied to a namespace that is
  not a string. The source has no message of its own for it, and
  `Entries.Message` gives a placeholder.

The escaper's round trip is exact only for some texts. Evaluating
`q + escapeContent(T) + q` gives back `T`, with CR LF read as LF, exactly
when `T` holds no lone CR and no U+2028 or U+2029. The escaper leaves these
characters raw, and a raw line terminator ends a JavaScript string literal
with an error. `RoundTrip.EscapedLiteralEvaluates` proves both directions.

On the `coffee` target, `compileCoffeeTemplate` calls `escapeContent` with
three arguments. The continuation sequence therefore contains the text
`undefined` in place of the global indent. The coffee lines are read back
with the string-literal rules of JavaScript. CoffeeScript shares those rules
for a single-line string without interpolation: a `'` string, or a `"`
string that holds no `#{`. A single-line template with no lone CR, U+2028
or U+2029 then reads back intact.
A template with a line break gives a line whose JavaScript reading fails at
the first continuation. Both behaviours are modelled as written.

## Model

| member | source | states |
|---|---|---|
| Escaping.EscapeContent | tasks/templates2js.js:24-29 | The three replacements in the source's order: backslashes doubled, the quote escaped, each `\r?\n` replaced by `\n` + quote + ` +` + LF + global indent + indent + quote. Empty content stays empty. |
| Escaping.DoubleBackslashes | tasks/templates2js.js:25-28 | The first replacement: the output is longer by the number of backslashes, and holds exactly twice as many backslashes as the input. |
| Escaping.EscapeQuotes | tasks/templates2js.js:26-28 | The second replacement: the output is longer by the number of quote characters in the input. |
| Escaping.ReplaceLineBreaks | tasks/templates2js.js:28 | The third replacement: text without a line feed is unchanged, and with a replacement of two or more characters the text never gets shorter. |
| Escaping.Continuation | tasks/templates2js.js:27 | The replacement for a line break is 7 characters plus both indents long. It starts with the escape `\n`, the closing quote, ` +` and a real line feed, and ends with the re-opening quote. |
| Escaping.PassesMatchReference | tasks/templates2js.js:28 | For a quote that is neither a backslash nor part of a line break, the chained replacements equal the one-pass reference escaper. No pass rewrites what an earlier one inserted. |
| Escaping.EscapeContentMatchesReference | tasks/templates2js.js:24-29 | `escapeContent` equals the one-pass reference: `\` becomes `\\`, the quote becomes `\q`, LF and CR LF become the continuation, and every other character is unchanged. |
| Escaping.EscapePlainText | tasks/templates2js.js:24-29 | Text with no backslash, no quote character and no line feed is returned unchanged. |
| Escaping.EscapeContentAppend | tasks/templates2js.js:28 | Escaping distributes over concatenation when the cut does not split a CR LF pair. |
| Escaping.EscapeContentLineFeedCount | tasks/templates2js.js:27-28 | The output holds exactly as many raw line feeds as the input, provided the indents hold none. |
| Escaping.EscapeContentLineFeedsInContinuations | tasks/templates2js.js:27-28 | Every raw line feed of the output is the sixth character of a complete continuation sequence. |
| Escaping.DoubleBackslashesAppend | tasks/templates2js.js:25-28 | The backslash pass works character by character: it distributes over concatenation. |
| Escaping.EscapeQuotesAppend | tasks/templates2js.js:26-28 | The quote pass distributes over concatenation. |
| Escaping.ReplaceLineBreaksPrefix | tasks/templates2js.js:28 | A prefix without CR or LF passes through the line-break pass unchanged. |
| Escaping.DoubleBackslashesIdentity | tasks/templates2js.js:25-28 | Text without a backslash is a fixed point of the first pass. |
| Escaping.EscapeQuotesIdentity | tasks/templates2js.js:26-28 | Text without the quote character is a fixed point of the second pass. |
| Escaping.ReplaceLineBreaksIdentity | tasks/templates2js.js:28 | Text without a line feed is a fixed point of the third pass. |
| RoundTrip.EscapedLiteralEvaluates | tasks/templates2js.js:24-29 | With a JavaScript quote and blank indents, the literal `q + escapeContent(T) + q` evaluates to `T` with CR LF read as LF when `T` has no lone CR, U+2028 or U+2029. Otherwise it does not evaluate. |
| RoundTrip.ReferenceEvaluates | tasks/templates2js.js:27-28 | The reference escape of safe text, closed by a quote, evaluates to the text with CR LF read as LF. |
| RoundTrip.ReferenceRejectsUnsafe | tasks/templates2js.js:27-28 | The reference escape of text holding a lone CR, U+2028 or U+2029 does not evaluate. |
| RoundTrip.ContinuationEval | tasks/templates2js.js:27 | Past one continuation sequence, the literal value gains exactly one line feed and reading goes on in the re-opened literal. |
| RoundTrip.UndefinedContinuationFails | tasks/templates2js.js:87 | With `undefined` as the global indent, the text after the `+` is not a literal, so nothing after a continuation evaluates. |
| RoundTrip.UndefinedIndentBreaksLiteral | tasks/templates2js.js:86-87 | On the coffee path, every template with a line feed yields a literal that does not evaluate. |
| RoundTrip.EscapeIgnoresGlobalIndent | tasks/templates2js.js:87 | For text without a line feed, the escape does not depend on the global indent. |
| RoundTrip.NormalizeWithoutLineFeed | tasks/templates2js.js:28 | Text without a line feed is unchanged by reading CR LF as LF. |
| Paths.NormalizePath | tasks/templates2js.js:32-37 | On a `/` platform the path is unchanged. Otherwise every backslash becomes `/`. The length and every other character are kept. |
| Paths.NormalizePathIdempotent | tasks/templates2js.js:32-37 | Normalising twice is normalising once. |
| Paths.NormalizePathReplacesBackslashes | tasks/templates2js.js:33-34 | On a platform whose separator is not `/`, each backslash position holds `/`. |
| Paths.ModuleKey | tasks/templates2js.js:123-126 | The key is the normalised relative path, passed through `rename` when one is configured. |
| CamelCase.CamelCased | tasks/templates2js.js:50-52 | Each match turns two characters into one: the result is never longer than the input and at least half as long. |
| CamelCase.CamelCasedUnchangedIff | tasks/templates2js.js:50-52 | The result equals the input exactly when the input holds no hyphen followed by a lower-case letter. |
| CamelCase.CamelCasedShortens | tasks/templates2js.js:51 | Text holding a match of `-([a-z])` comes out strictly shorter. |
| CamelCase.Upper | tasks/templates2js.js:51 | `toUpperCase` of a lower-case ASCII letter is the upper-case letter at the same alphabet offset. |
| CamelCase.CamelCasedHasNoHyphenLower | tasks/templates2js.js:50-52 | The result holds no hyphen followed by a lower-case letter. |
| CamelCase.CamelCasedIdentity | tasks/templates2js.js:50-52 | Text with no match of `-([a-z])` is unchanged. |
| CamelCase.CamelCasedHyphenFree | tasks/templates2js.js:50-52 | Text without a hyphen is unchanged. |
| CamelCase.CamelCasedIdempotent | tasks/templates2js.js:50-52 | Applying `camelCased` twice is applying it once. |
| CamelCase.CamelCasedAppend | tasks/templates2js.js:51 | The rewrite distributes over concatenation when the cut does not fall inside a match. |
| CamelCase.CamelCasedMatch | tasks/templates2js.js:51 | A single match `-x` becomes the letter `X`. |
| CamelCase.CamelCasedOneHyphen | tasks/templates2js.js:50-52 | In a name with one `-` before a lower-case letter, the hyphen is removed and the letter raised. Nothing else changes. |
| CamelCase.CamelCasedHead | tasks/templates2js.js:51 | A lower-case first character of the result is the input's first character. |
| CamelCase.CamelCasedExample | tasks/templates2js.js:50-52 | `my-module` becomes `myModule`. |
| Entries.DefaultOptions | tasks/templates2js.js:99-111 | The defaults: base `src`, the Grunt target's name as namespace, quote `"`, a three-space indent, an empty global indent, target `js`, empty `htmlmin`, `process` off, empty header, prefix and suffix, and no `rename`. |
| Entries.Preprocess | tasks/templates2js.js:59-67 | A callback gets the content and the path. `true` runs `grunt.template.process` with an empty options object. An object is passed as the options. `false` leaves the content as it is. |
| Entries.PrepareContent | tasks/templates2js.js:56-75 | With an empty `htmlmin` the result is the preprocessed content and never fails. With a non-empty `htmlmin` it is the minifier's output on the preprocessed content. It fails exactly when the minifier throws, and the failure carries the file path and the minifier's error. |
| Entries.Message | tasks/templates2js.js:73-133 | The minifier warning starts with the file path and a line feed. The fatal message starts with `Unknow target "` and then quotes the unknown target. |
| Entries.CompileTemplate | tasks/templates2js.js:55-83 | The entry succeeds exactly when the namespace is a string and the minifier does not throw. A minifier throw fails the entry with the file path and the minifier's error, before the namespace is looked at. Any other failure is the namespace error. The line ends with `;` and a line feed. |
| Entries.CompileCoffeeTemplate | tasks/templates2js.js:86-95 | Succeeds exactly for a string namespace, whatever `process` and `htmlmin` say. The line ends with the closing quote and a line feed, with no `;`. |
| Entries.Assignment | tasks/templates2js.js:78-80 | The line starts with the global indent and the identifier and ends with the literal and the terminator. The subscript around the key adds exactly seven characters. |
| Entries.CoffeeLine | tasks/templates2js.js:86-92 | A `coffee` line is the shared assignment shape, with no `;`, around the escaped raw file content. The escaped text keeps one raw line feed per line break of the file. Each of those line feeds sits in a continuation whose global indent is the text `undefined`. |
| Entries.CoffeeIgnoresPreparation | tasks/templates2js.js:86-87 | The `coffee` entry is the same whatever `process` and `htmlmin` are: the file is escaped as read. |
| Entries.AssignmentKeyVerbatim | tasks/templates2js.js:78-80 | The key sits unescaped between two quote characters inside the subscript. |
| Entries.SplitAtQuote | tasks/templates2js.js:78-79 | Splitting at the first quote fails exactly when there is no quote. Otherwise the two parts and the quote rebuild the input, and the first part holds no quote. |
| Entries.ReadAssignment | tasks/templates2js.js:78-80 | A generated assignment whose key holds no quote parses back to that key and the value of its literal. |
| Entries.JsEntryRoundTrip | tasks/templates2js.js:55-83 | A `js` entry parses back to its key and the prepared content, with CR LF read as LF, exactly when that content is safe. This holds for a JavaScript quote, blank indents and a key without quotes. |
| Entries.CoffeeEntryRoundTrip | tasks/templates2js.js:86-95 | A `coffee` entry of safe single-line text parses back to its key and the file's raw content. This holds for a `'` quote, or for a `"` quote when the text holds no `#{`. |
| Entries.CoffeeEntryMultiLine | tasks/templates2js.js:86-95 | A `coffee` entry of text with a line feed is generated, but its JavaScript reading fails. |
| Bundle.ParseTarget | tasks/templates2js.js:128-134 | `js` and `coffee` are recognised. Any other target is unsupported and kept verbatim. |
| Bundle.TargetNamespace | tasks/templates2js.js:118 | The destination's own `module` wins when truthy. Otherwise the option's value is used. |
| Bundle.ExistingSources | tasks/templates2js.js:40-48 | A source is kept exactly when it exists. No source is added. |
| Bundle.ExistingSourcesAll | tasks/templates2js.js:121 | When every source exists, the filter keeps all of them in order. |
| Bundle.ExistingSourcesAppend | tasks/templates2js.js:121 | The filter keeps the relative order of the sources: it distributes over concatenation. |
| Bundle.SourceKey | tasks/templates2js.js:123-126 | Without `rename` the key is the normalised path relative to `base`: unchanged on a `/` platform, with every backslash turned into `/` elsewhere. With `rename` the key is the callback applied to that normalised path. |
| Bundle.CompileSource | tasks/templates2js.js:121-135 | The key is derived, then the source is dispatched: `js` to `compileTemplate`, `coffee` to `compileCoffeeTemplate`, and any other target is the fatal error naming it. |
| Bundle.CompileAll | tasks/templates2js.js:121-136 | On success, entry `i` is the compiled source `i`. A failure is the failure of some source, and every earlier source compiled. |
| Bundle.CompileAllCons | tasks/templates2js.js:121-136 | Compiling a list is compiling its head and then its tail. |
| Bundle.Join | tasks/templates2js.js:136 | No entries give the empty text. Otherwise the result starts with the first entry and ends with the last. |
| Bundle.JoinCons | tasks/templates2js.js:136 | `join` puts the separator between the first entry and the join of the rest. |
| Bundle.Header | tasks/templates2js.js:139 | An empty header adds nothing. A non-empty one is followed by a line feed. |
| Bundle.NamespaceDeclaration | tasks/templates2js.js:140-152 | A falsy namespace declares nothing. On `js` the declaration is `var ns = {};`, on other targets `ns = {}`. Both carry the global indent and end with a blank line. |
| Bundle.BuildBundle | tasks/templates2js.js:114-156 | A destination is built exactly when all its existing sources compile. It is then the header, prefix, declaration, joined entries and suffix, in that order. |
| Bundle.MinifierFailureFatal | tasks/templates2js.js:70-74 | On the `js` target, a minifier that throws on any existing source aborts the destination. With a string namespace the failure is a minifier failure. When that source is the first existing one, the failure names it and carries the minifier's error. |
| Bundle.UnsupportedTargetFatal | tasks/templates2js.js:128-134 | With an unsupported target, a destination fails exactly when one of its sources exists, and the error names the target. |
| Bundle.Run | tasks/templates2js.js:114-157 | Destinations are handled in order. Each bundle written is its destination's built text. A failure stops the run at the first destination that fails, and nothing after it is written. |
| Example.TwoPlainTemplates | tasks/templates2js.js:99-156 | Two existing plain templates under the default options give `var name = {};`, a blank line, then one assignment per template keyed by its path relative to `src`, in source order, separated by a line feed. |
| Example.PlainTemplate | tasks/templates2js.js:55-83 | Under the default options, a plain template compiles to `name["key"] = "text";`. |
| Example.VarDeclaration | tasks/templates2js.js:141-152 | The `js` declaration of a hyphen-free name is `var name = {};` followed by a blank line. |
| Example.TwoSourceBundle | tasks/templates2js.js:114-156 | Two existing sources that compile give the declaration, the first entry, the line break and the second entry. |

## Left out

- File I/O, `path.relative`, `grunt.template.process` and the html minifier are uninterpreted fields of `Host`. The model says where they are called and with what, not what they compute.
- The `path.sep` value and the line break `grunt.util.normalizelf` produces are fields of `Host`, not platform lookups.
- The "not found" warning of `existsFilter` and the closing "Successfully converted" log line are output only and not modelled.
- `moduleNames` and `doubleIndent` are computed by the source and never used. They are not modelled.
- Option merging (`this.options`) beyond the default values is not modelled. `Options` is the merged result.
- `grunt.warn` and `grunt.fail.fatal` are modelled as stopping the run. The `--force` behaviour, which would continue with the unminified content, is not modelled.
- A `process` callback or `rename` function that throws or returns a non-string, and falsy non-string `prefix`/`suffix` values, are not modelled. A truthy non-string `module` value is also not modelled. `Namespace.Unset` covers `undefined`, `null` and `false`.
- The quote character is a single `char`. The regular-expression meaning of `\q` for letter quote characters (`\n`, `\d`, …) and the `$` replacement patterns inside the indent strings are not interpreted.
- Entries.CoffeeEntryRoundTrip: the line is read with JavaScript's string-literal rules. CoffeeScript interpolation of `#{…}` inside `"` strings is not modelled, so `"` templates holding `#{` are excluded.
- Entries.CoffeeEntryMultiLine: states only that the JavaScript reading fails. How CoffeeScript compiles `undefined` followed by a string is not modelled.
- RoundTrip.EscapedLiteralEvaluates: requires a JavaScript quote (`"` or `'`) and indents made of spaces and tabs. The evaluator covers only the fragment of JavaScript the escaper emits.
- CamelCase.Upper: covers ASCII letters only, which is all `[a-z]` can match.
- Paths.NormalizePath: on a platform whose separator is not `/`, `\` is the character replaced. What `path.relative` produces there is left to `Host`.

=== FILE: bundle.dfy ===
/**
  The body of the `templates2js` multi-task: for each file mapping, the
  existing sources are compiled in order under the chosen target, joined,
  and wrapped in the header, prefix, namespace declaration and suffix.
*/
module Bundle {
  import opened Results
  import opened Paths
  import opened CamelCase
  import opened Entries

  /** One destination: its ordered sources, its path and its own `module` value. */
  datatype FileMapping = FileMapping(src: seq<string>, dest: string, moduleName: Namespace)

  /** The `target` option. */
  datatype Target = Js | Coffee | Unsupported(name: string)

  function ParseTarget(t: string): (r: Target)
    ensures r == Js <==> t == "js"
    ensures r == Coffee <==> t == "coffee"
    ensures r.Unsupported? ==> r.name == t
  {
    if t == "js" then Js else if t == "coffee" then Coffee else Unsupported(t)
  }

  /** `f.module || options.module`. */
  function TargetNamespace(f: FileMapping, opts: Options): (ns: Namespace)
    ensures Truthy(f.moduleName) ==> ns == f.moduleName
    ensures !Truthy(f.moduleName) ==> ns == opts.moduleName
  {
    if Truthy(f.moduleName) then f.moduleName else opts.moduleName
  }

  /** `f.src.filter(existsFilter)`: the sources that exist, in their order. */
  function ExistingSources(src: seq<string>, fileExists: string -> bool): (r: seq<string>)
    ensures |r| <= |src|
    ensures forall p :: p in r <==> p in src && fileExists(p)
  {
    if |src| == 0 then []
    else (if fileExists(src[0]) then [src[0]] else []) + ExistingSources(src[1..], fileExists)
  }

  /** When every source exists nothing is dropped. */
  lemma {:induction false} ExistingSourcesAll(src: seq<string>, fileExists: string -> bool)
    requires forall i :: 0 <= i < |src| ==> fileExists(src[i])
    ensures ExistingSources(src, fileExists) == src
  {
    if |src| > 0 {
      ExistingSourcesAll(src[1..], fileExists);
    }
  }

  /** Filtering keeps the relative order: it distributes over concatenation. */
  lemma {:induction false} ExistingSourcesAppend(a: seq<string>, b: seq<string>, fileExists: string -> bool)
    ensures ExistingSources(a + b, fileExists) == ExistingSources(a, fileExists) + ExistingSources(b, fileExists)
  {
    if |a| == 0 {
      assert a + b == b;
    } else {
      assert (a + b)[1..] == a[1..] + b;
      ExistingSourcesAppend(a[1..], b, fileExists);
    }
  }

  /** The key of one source: relative to `base`, normalised, renamed. */
  function SourceKey(path: string, opts: Options, host: Host): (key: string)
    ensures opts.rename.None? && host.separator == "/" ==> key == host.relative(opts.base, path)
    ensures opts.rename.None? ==> key == NormalizePath(host.relative(opts.base, path), host.separator)
    ensures opts.rename.None? && host.separator != "/" ==> '\\' !in key
    ensures opts.rename.Some? ==> key == opts.rename.value(NormalizePath(host.relative(opts.base, path), host.separator))
  {
    ModuleKey(host.relative(opts.base, path), host.separator, opts.rename)
  }

  /** The callback of `map`: key derivation, then dispatch on the target. */
  function CompileSource(path: string, ns: Namespace, opts: Options, host: Host): (r: Result<string, Failure>)
    ensures ParseTarget(opts.target).Unsupported? ==> r == Failure(UnknownTarget(opts.target))
    ensures ParseTarget(opts.target) == Js ==> r == CompileTemplate(ns, SourceKey(path, opts, host), path, opts, host)
    ensures ParseTarget(opts.target) == Coffee ==> r == CompileCoffeeTemplate(ns, SourceKey(path, opts, host), path, opts, host)
  {
    var key := SourceKey(path, opts, host);
    match ParseTarget(opts.target)
    case Js => CompileTemplate(ns, key, path, opts, host)
    case Coffee => CompileCoffeeTemplate(ns, key, path, opts, host)
    case Unsupported(t) => Failure(UnknownTarget(t))
  }

  /** `entries` are the compiled sources of `paths`, one for one. */
  predicate CompiledEach(paths: seq<string>, entries: seq<string>, ns: Namespace, opts: Options, host: Host) {
    |entries| == |paths| &&
    forall i :: 0 <= i < |paths| ==> CompileSource(paths[i], ns, opts, host) == Success(entries[i])
  }

  /** `e` is the failure of the first source of `paths` that does not compile. */
  predicate FirstFailure(paths: seq<string>, e: Failure, ns: Namespace, opts: Options, host: Host) {
    exists i :: 0 <= i < |paths| && CompileSource(paths[i], ns, opts, host) == Failure(e) &&
      forall j :: 0 <= j < i ==> CompileSource(paths[j], ns, opts, host).Success?
  }

  /** A compiled first source in front of compiled others. */
  lemma CompiledEachCons(paths: seq<string>, entry: string, rest: seq<string>, ns: Namespace, opts: Options, host: Host)
    requires |paths| > 0 && CompileSource(paths[0], ns, opts, host) == Success(entry)
    requires CompiledEach(paths[1..], rest, ns, opts, host)
    ensures CompiledEach(paths, [entry] + rest, ns, opts, host)
  {
    var all := [entry] + rest;
    forall i | 0 <= i < |paths|
      ensures CompileSource(paths[i], ns, opts, host) == Success(all[i])
    {
      if i > 0 {
        assert all[i] == rest[i - 1];
        assert paths[i] == paths[1..][i - 1];
      }
    }
  }

  /** A first failure further on stays the first failure behind a source that compiles. */
  lemma FirstFailureCons(paths: seq<string>, e: Failure, ns: Namespace, opts: Options, host: Host)
    requires |paths| > 0 && CompileSource(paths[0], ns, opts, host).Success?
    requires FirstFailure(paths[1..], e, ns, opts, host)
    ensures FirstFailure(paths, e, ns, opts, host)
  {
    var i :| 0 <= i < |paths| - 1 && CompileSource(paths[1..][i], ns, opts, host) == Failure(e) &&
      forall j :: 0 <= j < i ==> CompileSource(paths[1..][j], ns, opts, host).Success?;
    assert CompileSource(paths[i + 1], ns, opts, host) == Failure(e);
    forall j | 0 <= j < i + 1
      ensures CompileSource(paths[j], ns, opts, host).Success?
    {
      if j > 0 {
        assert paths[j] == paths[1..][j - 1];
      }
    }
  }

  /** Compiles the sources in order; the first failure aborts the rest. */
  function CompileAll(paths: seq<string>, ns: Namespace, opts: Options, host: Host): (r: Result<seq<string>, Failure>)
    ensures r.Success? ==> CompiledEach(paths, r.value, ns, opts, host)
    ensures r.Failure? ==> FirstFailure(paths, r.error, ns, opts, host)
  {
    if |paths| == 0 then Success([])
    else
      match CompileSource(paths[0], ns, opts, host)
      case Failure(e) =>
        assert CompileSource(paths[0], ns, opts, host) == Failure(e);
        Failure(e)
      case Success(entry) =>
        match CompileAll(paths[1..], ns, opts, host)
        case Failure(e) =>
          FirstFailureCons(paths, e, ns, opts, host);
          Failure(e)
        case Success(rest) =>
          CompiledEachCons(paths, entry, rest, ns, opts, host);
          Success([entry] + rest)
  }

  /** Compiling `[path] + rest` is compiling `path`, then `rest`. */
  lemma CompileAllCons(path: string, rest: seq<string>, ns: Namespace, opts: Options, host: Host)
    ensures CompileAll([path] + rest, ns, opts, host)
         == (match CompileSource(path, ns, opts, host)
             case Failure(e) => Failure(e)
             case Success(entry) =>
               match CompileAll(rest, ns, opts, host)
               case Failure(e) => Failure(e)
               case Success(entries) => Success([entry] + entries))
  {
    assert ([path] + rest)[1..] == rest;
  }

  /** `Array.prototype.join(sep)`: the entries in order, `sep` between neighbours. */
  function Join(entries: seq<string>, sep: string): (r: string)
    ensures |entries| == 0 ==> r == ""
    ensures |entries| > 0 ==> entries[0] <= r
    ensures |entries| > 0 ==> |r| >= |entries[|entries| - 1]| && r[|r| - |entries[|entries| - 1]|..] == entries[|entries| - 1]
  {
    if |entries| == 0 then ""
    else if |entries| == 1 then entries[0]
    else Join(entries[..|entries| - 1], sep) + sep + entries[|entries| - 1]
  }

  /** Joining from the front: the first entry, a separator, then the join of the rest. */
  lemma {:induction false} JoinCons(first: string, rest: seq<string>, sep: string)
    requires |rest| > 0
    ensures Join([first] + rest, sep) == first + sep + Join(rest, sep)
  {
    var all := [first] + rest;
    if |rest| == 1 {
      assert all[..1] == [first];
    } else {
      assert all[..|all| - 1] == [first] + rest[..|rest| - 1];
      JoinCons(first, rest[..|rest| - 1], sep);
    }
  }

  /** `fileHeaderString` on a line of its own, or nothing. */
  function Header(fileHeaderString: string): (h: string)
    ensures fileHeaderString == "" ==> h == ""
    ensures fileHeaderString != "" ==> h == fileHeaderString + "\n"
  {
    if fileHeaderString != "" then fileHeaderString + "\n" else ""
  }

  /** The namespace object declaration, built piece by piece as in the source. */
  function NamespaceDeclaration(ns: Namespace, target: Target, indentGlobal: string): (d: string)
    ensures !Truthy(ns) ==> d == ""
    ensures Truthy(ns) && target == Js ==> d == indentGlobal + "var " + CamelCased(ns.id) + " = {};" + "\n\n"
    ensures Truthy(ns) && target != Js ==> d == indentGlobal + CamelCased(ns.id) + " = {}" + "\n\n"
  {
    if Truthy(ns) then
      var withVar := indentGlobal + (if target == Js then "var " else "");
      var declared := withVar + CamelCased(ns.id) + " = {}";
      var terminated := declared + (if target == Js then ";" else "");
      terminated + "\n\n"
    else ""
  }

  /** The text written to `f.dest`, or the failure that aborted the run. */
  function BuildBundle(f: FileMapping, opts: Options, host: Host): (r: Result<string, Failure>)
    ensures r.Success? <==> CompileAll(ExistingSources(f.src, host.fileExists), TargetNamespace(f, opts), opts, host).Success?
    ensures r.Success? ==>
      var ns := TargetNamespace(f, opts);
      r.value == Header(opts.fileHeaderString) + opts.prefix
        + NamespaceDeclaration(ns, ParseTarget(opts.target), opts.indentGlobal)
        + Join(CompileAll(ExistingSources(f.src, host.fileExists), ns, opts, host).value, host.lineBreak)
        + opts.suffix
  {
    var ns := TargetNamespace(f, opts);
    var entries :- CompileAll(ExistingSources(f.src, host.fileExists), ns, opts, host);
    var modules := Join(entries, host.lineBreak);
    var bundle := NamespaceDeclaration(ns, ParseTarget(opts.target), opts.indentGlobal);
    Success(Header(opts.fileHeaderString) + opts.prefix + bundle + modules + opts.suffix)
  }

  /** An unsupported target aborts a destination exactly when one of its sources exists. */
  lemma UnsupportedTargetFatal(f: FileMapping, opts: Options, host: Host)
    requires ParseTarget(opts.target).Unsupported?
    ensures BuildBundle(f, opts, host).Failure? <==> |ExistingSources(f.src, host.fileExists)| > 0
    ensures BuildBundle(f, opts, host).Failure? ==> BuildBundle(f, opts, host).error == UnknownTarget(opts.target)
  {
    var existing := ExistingSources(f.src, host.fileExists);
    var ns := TargetNamespace(f, opts);
    if |existing| > 0 {
      assert CompileSource(existing[0], ns, opts, host).Failure?;
    }
  }

  /**
    On the `js` target a minifier that throws on an existing source aborts
    the destination. With a string namespace the failure is a minifier
    failure, and when the source is the first existing one it is that
    source's failure.
  */
  lemma MinifierFailureFatal(f: FileMapping, opts: Options, host: Host, i: nat)
    requires ParseTarget(opts.target) == Js
    requires i < |ExistingSources(f.src, host.fileExists)|
    requires MinifierThrows(ExistingSources(f.src, host.fileExists)[i], opts, host)
    ensures BuildBundle(f, opts, host).Failure?
    ensures TargetNamespace(f, opts).Name? ==> BuildBundle(f, opts, host).error.MinifyFailed?
    ensures i == 0 ==>
      var first := ExistingSources(f.src, host.fileExists)[0];
      BuildBundle(f, opts, host).error == MinifyFailed(first, Minified(first, opts, host).error)
  {
    var existing := ExistingSources(f.src, host.fileExists);
    var ns := TargetNamespace(f, opts);
    assert CompileSource(existing[i], ns, opts, host).Failure?;
    var r := CompileAll(existing, ns, opts, host);
    assert r.Failure?;
    var j :| 0 <= j < |existing| && CompileSource(existing[j], ns, opts, host) == Failure(r.error) &&
      forall k :: 0 <= k < j ==> CompileSource(existing[k], ns, opts, host).Success?;
    assert i == 0 ==> j == 0;
  }

  /** What a run leaves behind: the bundles written, in order, and the failure that stopped it. */
  datatype RunOutcome = RunOutcome(written: seq<(string, string)>, failure: Option<Failure>)

  /** `written` is the destination of `f` with the bundle built for it. */
  predicate Wrote(f: FileMapping, written: (string, string), opts: Options, host: Host) {
    written.0 == f.dest && BuildBundle(f, opts, host) == Success(written.1)
  }

  /** `e` is the failure that building `f` ends with. */
  predicate FailedWith(f: FileMapping, e: Failure, opts: Options, host: Host) {
    BuildBundle(f, opts, host) == Failure(e)
  }

  /** A bundle written for the first destination in front of bundles written for the others. */
  lemma WroteCons(files: seq<FileMapping>, text: string, rest: seq<(string, string)>, opts: Options, host: Host)
    requires |files| > 0 && BuildBundle(files[0], opts, host) == Success(text)
    requires |rest| < |files|
    requires forall i :: 0 <= i < |rest| ==> Wrote(files[1..][i], rest[i], opts, host)
    ensures var written := [(files[0].dest, text)] + rest;
      forall i :: 0 <= i < |written| ==> Wrote(files[i], written[i], opts, host)
  {
    var written := [(files[0].dest, text)] + rest;
    forall i | 0 <= i < |written|
      ensures Wrote(files[i], written[i], opts, host)
    {
      if i > 0 {
        assert written[i] == rest[i - 1];
        assert files[i] == files[1..][i - 1];
      }
    }
  }

  /** `this.files.forEach(…)`: destinations in order, each written before the next starts. */
  function Run(files: seq<FileMapping>, opts: Options, host: Host): (out: RunOutcome)
    ensures |out.written| <= |files|
    ensures out.failure.None? ==> |out.written| == |files|
    ensures forall i :: 0 <= i < |out.written| ==> Wrote(files[i], out.written[i], opts, host)
    ensures out.failure.Some? ==>
      |out.written| < |files| && FailedWith(files[|out.written|], out.failure.value, opts, host)
  {
    if |files| == 0 then RunOutcome([], None)
    else
      match BuildBundle(files[0], opts, host)
      case Failure(e) => RunOutcome([], Some(e))
      case Success(text) =>
        var rest := Run(files[1..], opts, host);
        var written := [(files[0].dest, text)] + rest.written;
        WroteCons(files, text, rest.written, opts, host);
        assert rest.failure.Some? ==> files[|written|] == files[1..][|rest.written|];
        RunOutcome(written, rest.failure)
  }
}

=== FILE: camelcase.dfy ===
/**
  `camelCased`: the global rewrite of `-([a-z])` to the upper-case letter.
  The regular expression scans left to right; a match consumes the hyphen
  and the letter, so a hyphen already consumed cannot start another match.
*/
module CamelCase {

  predicate IsLower(c: char) {
    'a' <= c <= 'z'
  }

  predicate IsUpper(c: char) {
    'A' <= c <= 'Z'
  }

  /** `toUpperCase` on a lower-case ASCII letter. */
  function Upper(c: char): (u: char)
    requires IsLower(c)
    ensures IsUpper(u) && u as int - 'A' as int == c as int - 'a' as int
  {
    (c as int - 32) as char
  }

  /**
    `str.replace(/-([a-z])/g, …)`, uppercasing the captured letter. Each
    match turns two characters into one, so the result is never longer than
    the input and at least half as long.
  */
  function CamelCased(s: string): (r: string)
    ensures |r| <= |s| <= 2 * |r|
  {
    if |s| == 0 then []
    else if s[0] == '-' && |s| >= 2 && IsLower(s[1]) then [Upper(s[1])] + CamelCased(s[2..])
    else [s[0]] + CamelCased(s[1..])
  }

  /** A hyphen followed by a lower-case letter starts at index `i`. */
  predicate HyphenLowerAt(s: string, i: int)
    requires 0 <= i < |s| - 1
  {
    s[i] == '-' && IsLower(s[i + 1])
  }

  /** `s` holds no match of `-([a-z])`. */
  predicate NoHyphenLower(s: string) {
    forall i :: 0 <= i < |s| - 1 ==> !HyphenLowerAt(s, i)
  }

  /** The result starts with a lower-case letter only when the input starts with it. */
  lemma CamelCasedHead(s: string)
    requires |s| > 0
    ensures |CamelCased(s)| > 0
    ensures IsLower(CamelCased(s)[0]) ==> CamelCased(s)[0] == s[0]
  {
  }

  /** The rewrite leaves no hyphen followed by a lower-case letter. */
  lemma {:induction false} CamelCasedHasNoHyphenLower(s: string)
    ensures NoHyphenLower(CamelCased(s))
  {
    if |s| > 0 {
      var k := if s[0] == '-' && |s| >= 2 && IsLower(s[1]) then 2 else 1;
      var r := CamelCased(s);
      var rest := CamelCased(s[k..]);
      CamelCasedHasNoHyphenLower(s[k..]);
      assert r == [r[0]] + rest;
      forall i | 0 <= i < |r| - 1
        ensures !HyphenLowerAt(r, i)
      {
        if i == 0 {
          if k == 1 && r[0] == '-' {
            CamelCasedHead(s[1..]);
            assert r[1] == rest[0];
          }
        } else {
          assert r[i] == rest[i - 1] && r[i + 1] == rest[i];
          assert !HyphenLowerAt(rest, i - 1);
        }
      }
    }
  }

  /** Text with no match is left unchanged. */
  lemma {:induction false} CamelCasedIdentity(s: string)
    requires NoHyphenLower(s)
    ensures CamelCased(s) == s
  {
    if |s| > 0 {
      if |s| >= 2 {
        assert !HyphenLowerAt(s, 0);
      }
      forall i | 0 <= i < |s[1..]| - 1
        ensures !HyphenLowerAt(s[1..], i)
      {
        assert !HyphenLowerAt(s, i + 1);
      }
      CamelCasedIdentity(s[1..]);
    }
  }

  /** Text holding no hyphen. */
  predicate HyphenFree(s: string) {
    forall i :: 0 <= i < |s| ==> s[i] != '-'
  }

  /** Text holding a match comes out strictly shorter. */
  lemma {:induction false} CamelCasedShortens(s: string, i: int)
    requires 0 <= i < |s| - 1 && HyphenLowerAt(s, i)
    ensures |CamelCased(s)| < |s|
  {
    if !(s[0] == '-' && IsLower(s[1])) {
      assert i > 0 && HyphenLowerAt(s[1..], i - 1);
      CamelCasedShortens(s[1..], i - 1);
    }
  }

  /** The rewrite leaves the text unchanged exactly when the text holds no match of `-([a-z])`. */
  lemma CamelCasedUnchangedIff(s: string)
    ensures CamelCased(s) == s <==> NoHyphenLower(s)
  {
    if NoHyphenLower(s) {
      CamelCasedIdentity(s);
    } else {
      var i :| 0 <= i < |s| - 1 && HyphenLowerAt(s, i);
      CamelCasedShortens(s, i);
    }
  }

  /** Text without a hyphen is left unchanged. */
  lemma CamelCasedHyphenFree(s: string)
    requires HyphenFree(s)
    ensures CamelCased(s) == s
  {
    CamelCasedIdentity(s);
  }

  /** Applying the rewrite twice is applying it once. */
  lemma CamelCasedIdempotent(s: string)
    ensures CamelCased(CamelCased(s)) == CamelCased(s)
  {
    CamelCasedHasNoHyphenLower(s);
    CamelCasedIdentity(CamelCased(s));
  }

  /** A match cannot straddle the cut between `a` and `b`. */
  predicate SplitsMatch(a: string, b: string) {
    |a| > 0 && a[|a| - 1] == '-' && |b| > 0 && IsLower(b[0])
  }

  /**
    The rewrite works match by match: it distributes over a concatenation
    whose cut does not fall inside a match.
  */
  lemma {:induction false} CamelCasedAppend(a: string, b: string)
    requires !SplitsMatch(a, b)
    ensures CamelCased(a + b) == CamelCased(a) + CamelCased(b)
  {
    if |a| == 0 {
      assert a + b == b;
    } else if a[0] == '-' && |a| >= 2 && IsLower(a[1]) {
      assert |a| > 2 ==> a[2..][|a| - 3] == a[|a| - 1];
      CamelCasedAppend(a[2..], b);
      AppendAfterMatch(a, b);
    } else {
      assert |a| > 1 ==> a[1..][|a| - 2] == a[|a| - 1];
      CamelCasedAppend(a[1..], b);
      AppendAfterPlain(a, b);
    }
  }

  /** The inductive step of `CamelCasedAppend` when `a` starts with a match. */
  lemma AppendAfterMatch(a: string, b: string)
    requires |a| >= 2 && a[0] == '-' && IsLower(a[1])
    requires CamelCased(a[2..] + b) == CamelCased(a[2..]) + CamelCased(b)
    ensures CamelCased(a + b) == CamelCased(a) + CamelCased(b)
  {
    var ab := a + b;
    assert ab[0] == a[0] && ab[1] == a[1];
    assert ab[2..] == a[2..] + b;
    var u := [Upper(a[1])];
    CamelCasedMatchStep(ab);
    CamelCasedMatchStep(a);
    ConcatAssoc(u, CamelCased(a[2..]), CamelCased(b));
  }

  /** The inductive step of `CamelCasedAppend` when `a` starts with no match. */
  lemma AppendAfterPlain(a: string, b: string)
    requires |a| > 0 && !(a[0] == '-' && |a| >= 2 && IsLower(a[1])) && !SplitsMatch(a, b)
    requires CamelCased(a[1..] + b) == CamelCased(a[1..]) + CamelCased(b)
    ensures CamelCased(a + b) == CamelCased(a) + CamelCased(b)
  {
    var ab := a + b;
    assert ab[0] == a[0];
    assert ab[1..] == a[1..] + b;
    assert !(ab[0] == '-' && |ab| >= 2 && IsLower(ab[1])) by {
      if |a| == 1 {
        assert ab[1..] == b;
      } else {
        assert ab[1] == a[1];
      }
    }
    CamelCasedPlainStep(ab);
    CamelCasedPlainStep(a);
    ConcatAssoc([a[0]], CamelCased(a[1..]), CamelCased(b));
  }

  /**
    Regrouping a concatenation. Kept as a lemma: stated inline in the two
    steps above, the regrouping makes the solver unfold `CamelCased` far
    more often.
  */
  lemma ConcatAssoc(x: string, y: string, z: string)
    ensures x + (y + z) == (x + y) + z
  {
  }

  /** One step of the rewrite at a match. */
  lemma CamelCasedMatchStep(s: string)
    requires |s| >= 2 && s[0] == '-' && IsLower(s[1])
    ensures CamelCased(s) == [Upper(s[1])] + CamelCased(s[2..])
  {
  }

  /** One step of the rewrite at a character that starts no match. */
  lemma CamelCasedPlainStep(s: string)
    requires |s| > 0 && !(s[0] == '-' && |s| >= 2 && IsLower(s[1]))
    ensures CamelCased(s) == [s[0]] + CamelCased(s[1..])
  {
  }

  /** Each match `-x` becomes the single letter `X`. */
  lemma CamelCasedMatch(c: char)
    requires IsLower(c)
    ensures CamelCased(['-', c]) == [Upper(c)]
  {
    assert ['-', c][2..] == [];
  }

  /** A name with a single hyphen before a lower-case letter: the hyphen goes, the letter is raised. */
  lemma CamelCasedOneHyphen(a: string, c: char, b: string)
    requires HyphenFree(a) && HyphenFree(b)
    requires IsLower(c)
    ensures CamelCased(a + ['-', c] + b) == a + [Upper(c)] + b
  {
    CamelCasedHyphenFree(a);
    CamelCasedHyphenFree(b);
    CamelCasedMatch(c);
    CamelCasedAppend(a, ['-', c]);
    CamelCasedAppend(a + ['-', c], b);
  }

  /** `my-module` becomes `myModule`. */
  lemma CamelCasedExample()
    ensures CamelCased("my-module") == "myModule"
  {
    CamelCasedOneHyphen("my", 'm', "odule");
    assert "my-module" == "my" + ['-', 'm'] + "odule";
    assert "myModule" == "my" + ['M'] + "odule";
  }
}

=== FILE: entries.dfy ===
/**
  Per-template compilation: content preparation, `compileTemplate` (the `js`
  target) and `compileCoffeeTemplate` (the `coffee` target).

  The collaborators the compilation calls are fields of `Host`: the file
  system (`grunt.file.exists`, `grunt.file.read`), Node's `path.relative` and
  `path.sep`, `grunt.template.process`, the html minifier and
  `grunt.util.normalizelf`. Writing the bundle (`grunt.file.write`) is the
  `written` list of `Bundle.RunOutcome`; the log lines are not modelled.
*/
module Entries {
  import opened Results
  import opened Escaping
  import opened CamelCase
  import opened JsLiteral
  import opened RoundTrip

  /**
    The `process` option: `false`, `true`, an options object handed to
    `grunt.template.process`, or a callback. `true` stands for the empty
    options object `{}`.
  */
  datatype ProcessOption =
    | NoProcess
    | DefaultTemplate
    | TemplateOptions(options: map<string, string>)
    | Callback(fn: (string, string) -> string)

  /**
    The namespace identifier `f.module || options.module`: `Unset` stands for
    a value that is not a string (`undefined`, `null`, `false`).
  */
  datatype Namespace = Unset | Name(id: string)

  /** JavaScript truthiness of the namespace value. */
  predicate Truthy(ns: Namespace) {
    ns.Name? && ns.id != ""
  }

  /** The ways a run stops. */
  datatype Failure =
    | MinifyFailed(path: string, reason: string)  // `grunt.warn` after the minifier threw
    | UnknownTarget(target: string)               // `grunt.fail.fatal` on an unsupported target
    | NamespaceNotString                          // `camelCased` called on a non-string namespace

  /**
    The message reported for a failure. The source has no text of its own for
    `NamespaceNotString`: the JavaScript engine raises its `TypeError`, and the
    message given here is a placeholder for it.
  */
  function Message(f: Failure): (m: string)
    ensures f.MinifyFailed? ==> |m| > |f.path| && m[..|f.path|] == f.path && m[|f.path|] == LF
    ensures f.UnknownTarget? ==> |m| >= 15 + |f.target| && m[..15] == "Unknow target \"" && m[15 .. 15 + |f.target|] == f.target
  {
    match f
    case MinifyFailed(p, e) => p + "\n" + e
    case UnknownTarget(t) => "Unknow target \"" + t + "\" specified"
    case NamespaceNotString => "TypeError: the namespace is not a string"
  }

  /**
    The collaborators the Grunt task calls. `substitute(text, options)` is
    `grunt.template.process(text, options)`; with no `data` key in the
    options, Grunt substitutes from its configuration data.
  */
  datatype Host = Host(
    fileExists: string -> bool,
    readFile: string -> string,
    relative: (string, string) -> string,
    substitute: (string, map<string, string>) -> string,
    minify: (string, map<string, string>) -> Result<string, string>,
    separator: string,
    lineBreak: string)

  /** The Grunt task options after defaulting. */
  datatype Options = Options(
    base: string,
    moduleName: Namespace,
    quoteChar: char,
    fileHeaderString: string,
    indentString: string,
    indentGlobal: string,
    target: string,
    htmlmin: map<string, string>,
    process: ProcessOption,
    prefix: string,
    suffix: string,
    rename: Option<string -> string>)

  /** The defaults of `this.options(…)`; `targetName` is the task target's name. */
  function DefaultOptions(targetName: string): (o: Options)
    ensures o.quoteChar == '"' && o.target == "js" && o.process.NoProcess? && |o.htmlmin| == 0
    ensures o.moduleName == Name(targetName) && o.base == "src" && o.indentString == "   "
    ensures o.fileHeaderString == "" && o.indentGlobal == "" && o.prefix == "" && o.suffix == ""
    ensures o.rename.None?
  {
    Options("src", Name(targetName), '"', "", "   ", "", "js", map[], NoProcess, "", "", None)
  }

  /**
    The `process` step: a callback gets the content and the path, `true` runs
    the template engine with an empty options object, an object is passed as
    the engine's options, and `false` leaves the content alone.
  */
  function Preprocess(raw: string, path: string, process: ProcessOption,
                      substitute: (string, map<string, string>) -> string): (r: string)
    ensures process.NoProcess? ==> r == raw
    ensures process.DefaultTemplate? ==> r == substitute(raw, map[])
    ensures process.TemplateOptions? ==> r == substitute(raw, process.options)
    ensures process.Callback? ==> r == process.fn(raw, path)
  {
    match process
    case NoProcess => raw
    case DefaultTemplate => substitute(raw, map[])
    case TemplateOptions(o) => substitute(raw, o)
    case Callback(f) => f(raw, path)
  }

  /** Pre-processing, then minification when `htmlmin` has a key. */
  function PrepareContent(raw: string, path: string, opts: Options, host: Host): (r: Result<string, Failure>)
    ensures opts.process.NoProcess? && |opts.htmlmin| == 0 ==> r == Success(raw)
    ensures opts.process.Callback? && |opts.htmlmin| == 0 ==> r == Success(opts.process.fn(raw, path))
    ensures opts.process.DefaultTemplate? && |opts.htmlmin| == 0 ==> r == Success(host.substitute(raw, map[]))
    ensures opts.process.TemplateOptions? && |opts.htmlmin| == 0 ==> r == Success(host.substitute(raw, opts.process.options))
    ensures |opts.htmlmin| == 0 ==> r == Success(Preprocess(raw, path, opts.process, host.substitute))
    ensures |opts.htmlmin| > 0 ==>
      (r.Success? <==> host.minify(Preprocess(raw, path, opts.process, host.substitute), opts.htmlmin).Success?)
    ensures |opts.htmlmin| > 0 && r.Success? ==>
      r.value == host.minify(Preprocess(raw, path, opts.process, host.substitute), opts.htmlmin).value
    ensures r.Failure? ==>
      r.error == MinifyFailed(path, host.minify(Preprocess(raw, path, opts.process, host.substitute), opts.htmlmin).error)
  {
    var processed := Preprocess(raw, path, opts.process, host.substitute);
    if |opts.htmlmin| > 0 then
      match host.minify(processed, opts.htmlmin)
      case Success(m) => Success(m)
      case Failure(e) => Failure(MinifyFailed(path, e))
    else Success(processed)
  }

  /** The minifier's answer for the preprocessed content of `path`. */
  function Minified(path: string, opts: Options, host: Host): Result<string, string> {
    host.minify(Preprocess(host.readFile(path), path, opts.process, host.substitute), opts.htmlmin)
  }

  /** `htmlmin` has a key and the minifier throws on `path`: the `grunt.warn` branch. */
  predicate MinifierThrows(path: string, opts: Options, host: Host) {
    |opts.htmlmin| > 0 && Minified(path, opts, host).Failure?
  }

  /**
    `indent ident[qkeyq] = literal terminator`: one generated assignment. The
    line starts with the indent and the identifier and ends with the literal
    and the terminator; the seven characters `[`, two quotes and `] = ` around the
    key are all it adds.
  */
  function Assignment(indent: string, ident: string, key: string, q: char, literal: string, terminator: string): (line: string)
    ensures |line| == |indent| + |ident| + |key| + |literal| + |terminator| + 7
    ensures line[..|indent| + |ident|] == indent + ident
    ensures line[|line| - |literal| - |terminator|..] == literal + terminator
  {
    var line := (indent + ident) + ("[" + [q] + key + [q] + "] = ") + (literal + terminator);
    assert line == indent + ident + "[" + [q] + key + [q] + "] = " + literal + terminator;
    line
  }

  /** The key sits verbatim, unescaped, between the quotes of the subscript. */
  lemma AssignmentKeyVerbatim(indent: string, ident: string, key: string, q: char, literal: string, terminator: string)
    ensures var line := Assignment(indent, ident, key, q, literal, terminator);
      var at := |indent| + |ident| + 2;
      |line| >= at + |key| + 1 && line[at - 1] == q && line[at .. at + |key|] == key && line[at + |key|] == q
  {
    var line := Assignment(indent, ident, key, q, literal, terminator);
    var at := |indent| + |ident| + 2;
    assert line == (indent + ident + "[" + [q]) + key + ([q] + "] = " + literal + terminator);
  }

  /** `compileTemplate`: the `js` entry, content pre-processed and minified, then escaped. */
  function CompileTemplate(ns: Namespace, key: string, path: string, opts: Options, host: Host): (r: Result<string, Failure>)
    ensures ns.Unset? ==> r.Failure?
    ensures ns.Name? && |opts.htmlmin| == 0 ==> r.Success?
    ensures r.Failure? ==> r.error == NamespaceNotString || (r.error.MinifyFailed? && r.error.path == path)
    ensures MinifierThrows(path, opts, host) ==> r == Failure(MinifyFailed(path, Minified(path, opts, host).error))
    ensures r.Success? <==> ns.Name? && !MinifierThrows(path, opts, host)
    ensures r.Success? ==> |r.value| >= 2 && r.value[|r.value| - 2..] == ";\n"
  {
    var content :- PrepareContent(host.readFile(path), path, opts, host);
    var escaped := EscapeContent(content, opts.quoteChar, opts.indentString, opts.indentGlobal);
    if ns.Unset? then Failure(NamespaceNotString)
    else
      var q := opts.quoteChar;
      Success(Assignment(opts.indentGlobal, CamelCased(ns.id), key, q, [q] + escaped + [q], ";\n"))
  }

  /** The global indent `compileCoffeeTemplate` hands to the escaper: JavaScript's `undefined`. */
  const CoffeeGlobalIndent: string := "undefined"

  /** `compileCoffeeTemplate`: the `coffee` entry, raw content escaped, no `process`, no minifier. */
  function CompileCoffeeTemplate(ns: Namespace, key: string, path: string, opts: Options, host: Host): (r: Result<string, Failure>)
    ensures r.Success? <==> ns.Name?
    ensures r.Failure? ==> r.error == NamespaceNotString
    ensures r.Success? ==> |r.value| >= 2 && r.value[|r.value| - 1] == LF && r.value[|r.value| - 2] == opts.quoteChar
  {
    var q := opts.quoteChar;
    var escaped := EscapeContent(host.readFile(path), q, opts.indentString, CoffeeGlobalIndent);
    if ns.Unset? then Failure(NamespaceNotString)
    else Success(Assignment(opts.indentGlobal, CamelCased(ns.id), key, q, [q] + escaped + [q], "\n"))
  }

  /**
    The line of a `coffee` entry: the shared assignment shape with no `;`,
    around the escaped raw file content. The escaped text keeps one raw line
    feed per line break of the file, and each of them sits in a continuation
    whose global indent is the text `undefined`.
  */
  lemma CoffeeLine(ns: Namespace, key: string, path: string, opts: Options, host: Host)
    requires ns.Name? && OrdinaryQuote(opts.quoteChar) && NoLineFeed(opts.indentString)
    ensures var q := opts.quoteChar;
      var e := EscapeContent(host.readFile(path), q, opts.indentString, CoffeeGlobalIndent);
      var nl := Continuation(q, opts.indentString, CoffeeGlobalIndent);
      CompileCoffeeTemplate(ns, key, path, opts, host)
        == Success(Assignment(opts.indentGlobal, CamelCased(ns.id), key, q, [q] + e + [q], "\n"))
      && Occurrences(e, LF) == Occurrences(host.readFile(path), LF)
      && LineFeedsInContinuations(e, nl)
      && nl[6 .. 15] == "undefined"
  {
    var q := opts.quoteChar;
    var nl := Continuation(q, opts.indentString, CoffeeGlobalIndent);
    assert NoLineFeed(CoffeeGlobalIndent) by {
      forall i | 0 <= i < |CoffeeGlobalIndent|
        ensures CoffeeGlobalIndent[i] != LF
      {
      }
    }
    EscapeContentLineFeedCount(host.readFile(path), q, opts.indentString, CoffeeGlobalIndent);
    EscapeContentLineFeedsInContinuations(host.readFile(path), q, opts.indentString, CoffeeGlobalIndent);
    assert nl == [Backslash, 'n', q, ' ', '+', LF] + CoffeeGlobalIndent + (opts.indentString + [q]);
  }

  /** The `coffee` entry does not depend on `process` or `htmlmin`: the raw file content is escaped. */
  lemma CoffeeIgnoresPreparation(ns: Namespace, key: string, path: string, opts: Options, process: ProcessOption,
                                 htmlmin: map<string, string>, host: Host)
    ensures CompileCoffeeTemplate(ns, key, path, opts, host)
         == CompileCoffeeTemplate(ns, key, path, opts.(process := process, htmlmin := htmlmin), host)
  {
  }

  // ---------------------------------------------------------------------------
  // Reading an entry back

  /** Splits `s` at its first `q`. */
  function SplitAtQuote(s: string, q: char): (r: Option<(string, string)>)
    ensures r.None? <==> q !in s
    ensures r.Some? ==> s == r.value.0 + [q] + r.value.1 && q !in r.value.0
  {
    if |s| == 0 then None
    else if s[0] == q then
      assert s == [] + [q] + s[1..];
      Some(([], s[1..]))
    else match SplitAtQuote(s[1..], q)
      case None => None
      case Some(p) => Some(([s[0]] + p.0, p.1))
  }

  lemma {:induction false} SplitAtQuoteOf(key: string, rest: string, q: char)
    requires q !in key
    ensures SplitAtQuote(key + [q] + rest, q) == Some((key, rest))
  {
    var s := key + [q] + rest;
    if |key| == 0 {
      assert s == [q] + rest;
      assert s[1..] == rest;
    } else {
      assert s[0] == key[0] != q;
      assert s[1..] == key[1..] + [q] + rest;
      SplitAtQuoteOf(key[1..], rest, q);
      assert [key[0]] + key[1..] == key;
    }
  }

  /**
    Reads the line `head[qkeyq] = literal terminator` back into the key and the
    value of the literal; `None` when the line does not have that shape or the
    literal does not evaluate.
  */
  function ReadEntry(line: string, head: string, q: char, terminator: string): Option<(string, string)> {
    var opening := head + "[" + [q];
    if !(opening <= line) then None
    else match SplitAtQuote(line[|opening|..], q)
      case None => None
      case Some(p) =>
        var rest := p.1;
        if "] = " <= rest && 4 + |terminator| <= |rest| && rest[|rest| - |terminator|..] == terminator then
          match EvalLiteral(rest[4 .. |rest| - |terminator|], q)
          case None => None
          case Some(v) => Some((p.0, v))
        else None
  }

  /** An assignment whose key holds no quote reads back as its key and the value of its literal. */
  lemma ReadAssignment(indent: string, ident: string, key: string, q: char, literal: string, terminator: string)
    requires q !in key
    ensures ReadEntry(Assignment(indent, ident, key, q, literal, terminator), indent + ident, q, terminator)
         == (match EvalLiteral(literal, q)
             case None => None
             case Some(v) => Some((key, v)))
  {
    var line := Assignment(indent, ident, key, q, literal, terminator);
    var opening := indent + ident + "[" + [q];
    var rest := "] = " + literal + terminator;
    assert line == opening + (key + [q] + rest);
    assert line[|opening|..] == key + [q] + rest;
    SplitAtQuoteOf(key, rest, q);
    assert rest[4 .. |rest| - |terminator|] == literal;
  }

  /**
    A `js` entry reads back as its key and the prepared content, CR LF read
    as LF, whenever the content is safe, the quote is a JavaScript quote, the
    indents are blank and the key holds no quote character.
  */
  lemma JsEntryRoundTrip(ns: Namespace, key: string, path: string, opts: Options, host: Host)
    requires ns.Name? && IsJsQuote(opts.quoteChar) && opts.quoteChar !in key
    requires Blank(opts.indentString) && Blank(opts.indentGlobal)
    requires PrepareContent(host.readFile(path), path, opts, host).Success?
    ensures var c := PrepareContent(host.readFile(path), path, opts, host).value;
      var r := CompileTemplate(ns, key, path, opts, host);
      r.Success? &&
      ReadEntry(r.value, opts.indentGlobal + CamelCased(ns.id), opts.quoteChar, ";\n")
        == (if LiteralSafe(c) then Some((key, NormalizeLineBreaks(c))) else None)
  {
    var c := PrepareContent(host.readFile(path), path, opts, host).value;
    var q := opts.quoteChar;
    var literal := [q] + EscapeContent(c, q, opts.indentString, opts.indentGlobal) + [q];
    EscapedLiteralEvaluates(c, q, opts.indentString, opts.indentGlobal);
    ReadAssignment(opts.indentGlobal, CamelCased(ns.id), key, q, literal, ";\n");
  }

  /** `#{` occurs in `t`: inside a `"` string CoffeeScript reads it as the start of an interpolation. */
  predicate HasInterpolation(t: string) {
    exists i :: 0 <= i < |t| - 1 && t[i] == '#' && t[i + 1] == '{'
  }

  /**
    A `coffee` entry of single-line safe text reads back as its key and the
    file's raw content, whatever `process` and `htmlmin` say. The line is read
    with the string-literal rules of JavaScript, which CoffeeScript shares for
    a single-line string without interpolation: a `'` string, or a `"` string
    holding no `#{`.
  */
  lemma CoffeeEntryRoundTrip(ns: Namespace, key: string, path: string, opts: Options, host: Host)
    requires ns.Name? && IsJsQuote(opts.quoteChar) && opts.quoteChar !in key && Blank(opts.indentString)
    requires opts.quoteChar == '\'' || !HasInterpolation(host.readFile(path))
    requires LiteralSafe(host.readFile(path)) && NoLineFeed(host.readFile(path))
    ensures var r := CompileCoffeeTemplate(ns, key, path, opts, host);
      r.Success? && ReadEntry(r.value, opts.indentGlobal + CamelCased(ns.id), opts.quoteChar, "\n")
        == Some((key, host.readFile(path)))
  {
    var c := host.readFile(path);
    var q := opts.quoteChar;
    var literal := [q] + EscapeContent(c, q, opts.indentString, CoffeeGlobalIndent) + [q];
    EscapeIgnoresGlobalIndent(c, q, opts.indentString, CoffeeGlobalIndent, "");
    EscapedLiteralEvaluates(c, q, opts.indentString, "");
    NormalizeWithoutLineFeed(c);
    ReadAssignment(opts.indentGlobal, CamelCased(ns.id), key, q, literal, "\n");
  }

  /** A `coffee` entry of text with a line break does not read back: its literal does not evaluate. */
  lemma CoffeeEntryMultiLine(ns: Namespace, key: string, path: string, opts: Options, host: Host)
    requires ns.Name? && IsJsQuote(opts.quoteChar) && opts.quoteChar !in key
    requires !NoLineFeed(host.readFile(path))
    ensures var r := CompileCoffeeTemplate(ns, key, path, opts, host);
      r.Success? && ReadEntry(r.value, opts.indentGlobal + CamelCased(ns.id), opts.quoteChar, "\n") == None
  {
    var c := host.readFile(path);
    var q := opts.quoteChar;
    var literal := [q] + EscapeContent(c, q, opts.indentString, CoffeeGlobalIndent) + [q];
    UndefinedIndentBreaksLiteral(c, q, opts.indentString);
    ReadAssignment(opts.indentGlobal, CamelCased(ns.id), key, q, literal, "\n");
  }
}

=== FILE: escape.dfy ===
/**
  The literal escaper of templates2js (`escapeContent`).

  The source rewrites the template text with three global regular-expression
  replacements applied one after the other: backslashes are doubled, the quote
  character is prefixed with a backslash, and every `\r?\n` line break becomes a
  continuation sequence that closes the literal, appends ` +`, starts a new
  source line and re-opens the literal.  `EscapeContent` composes the three
  passes exactly in that order; `EscapeReference` is an independent one-pass
  definition that says what each input character turns into, and
  `EscapeContentMatchesReference` connects the two.
*/
module Escaping {

  const LF: char := '\n'
  const CR: char := '\r'
  const Backslash: char := '\\'

  /** A quote character that is neither the backslash nor part of a line break. */
  predicate OrdinaryQuote(q: char) {
    q != Backslash && q != LF && q != CR
  }

  /** Number of occurrences of `c` in `s`. */
  function Occurrences(s: string, c: char): nat {
    if |s| == 0 then 0 else (if s[0] == c then 1 else 0) + Occurrences(s[1..], c)
  }

  /** Text containing no line feed. */
  predicate NoLineFeed(s: string) {
    forall i :: 0 <= i < |s| ==> s[i] != LF
  }

  /** First pass: every backslash is doubled. */
  function DoubleBackslashes(s: string): (r: string)
    ensures |r| == |s| + Occurrences(s, Backslash)
    ensures Occurrences(r, Backslash) == 2 * Occurrences(s, Backslash)
  {
    if |s| == 0 then []
    else (if s[0] == Backslash then [Backslash, Backslash] else [s[0]]) + DoubleBackslashes(s[1..])
  }

  /** Second pass: every occurrence of the quote character gets a backslash prefix. */
  function EscapeQuotes(s: string, q: char): (r: string)
    ensures |r| == |s| + Occurrences(s, q)
  {
    if |s| == 0 then []
    else (if s[0] == q then [Backslash, q] else [s[0]]) + EscapeQuotes(s[1..], q)
  }

  /** Third pass: every line break, LF or CR LF, leftmost first, is replaced by `nl`. */
  function ReplaceLineBreaks(s: string, nl: string): (r: string)
    ensures Occurrences(s, LF) == 0 ==> r == s
    ensures |nl| >= 2 ==> |r| >= |s|
  {
    if |s| == 0 then []
    else if s[0] == LF then nl + ReplaceLineBreaks(s[1..], nl)
    else if s[0] == CR && |s| >= 2 && s[1] == LF then
      assert s[1..][0] == LF && Occurrences(s[1..], LF) > 0;
      nl + ReplaceLineBreaks(s[2..], nl)
    else [s[0]] + ReplaceLineBreaks(s[1..], nl)
  }

  /**
    The replacement text for a line break: the escape `\n`, the closing quote,
    ` +`, a real line feed, the global indent, one indent unit and the
    re-opening quote.
  */
  function Continuation(q: char, indentString: string, indentGlobal: string): (nl: string)
    ensures |nl| == 7 + |indentGlobal| + |indentString|
    ensures nl[..6] == [Backslash, 'n', q, ' ', '+', LF] && nl[|nl| - 1] == q
  {
    [Backslash, 'n', q, ' ', '+', LF] + indentGlobal + indentString + [q]
  }

  /** `escapeContent(content, quoteChar, indentString, indentGlobal)` as written. */
  function EscapeContent(content: string, q: char, indentString: string, indentGlobal: string): (r: string)
    ensures content == [] ==> r == []
  {
    ReplaceLineBreaks(EscapeQuotes(DoubleBackslashes(content), q), Continuation(q, indentString, indentGlobal))
  }

  /** What a single character other than a line feed becomes. */
  function EscapeChar(c: char, q: char): string {
    if c == Backslash then [Backslash, Backslash]
    else if c == q then [Backslash, q]
    else [c]
  }

  /** One-pass reference escaper: each line break becomes `nl`, every other character `EscapeChar`. */
  function EscapeReference(s: string, q: char, nl: string): string {
    if |s| == 0 then []
    else if s[0] == LF then nl + EscapeReference(s[1..], q, nl)
    else if s[0] == CR && |s| >= 2 && s[1] == LF then nl + EscapeReference(s[2..], q, nl)
    else EscapeChar(s[0], q) + EscapeReference(s[1..], q, nl)
  }

  // ---------------------------------------------------------------------------
  // The three passes against the one-pass reference

  lemma {:induction false} DoubleBackslashesAppend(a: string, b: string)
    ensures DoubleBackslashes(a + b) == DoubleBackslashes(a) + DoubleBackslashes(b)
  {
    if |a| == 0 {
      assert a + b == b;
    } else {
      assert (a + b)[1..] == a[1..] + b;
      DoubleBackslashesAppend(a[1..], b);
    }
  }

  lemma {:induction false} EscapeQuotesAppend(a: string, b: string, q: char)
    ensures EscapeQuotes(a + b, q) == EscapeQuotes(a, q) + EscapeQuotes(b, q)
  {
    if |a| == 0 {
      assert a + b == b;
    } else {
      assert (a + b)[1..] == a[1..] + b;
      EscapeQuotesAppend(a[1..], b, q);
    }
  }

  /** A prefix free of CR and LF passes through the line-break pass unchanged. */
  lemma {:induction false} ReplaceLineBreaksPrefix(p: string, x: string, nl: string)
    requires forall i :: 0 <= i < |p| ==> p[i] != LF && p[i] != CR
    ensures ReplaceLineBreaks(p + x, nl) == p + ReplaceLineBreaks(x, nl)
  {
    if |p| == 0 {
      assert p + x == x;
    } else {
      assert (p + x)[1..] == p[1..] + x;
      ReplaceLineBreaksPrefix(p[1..], x, nl);
    }
  }

  /** The quote pass on a single character. */
  lemma EscapeQuotesOne(c: char, q: char)
    ensures EscapeQuotes([c], q) == (if c == q then [Backslash, q] else [c])
  {
    assert [c][1..] == [];
  }

  /** The first two passes applied to a non-empty text start with the escape of its first character. */
  lemma EscapedHead(s: string, q: char)
    requires |s| > 0 && OrdinaryQuote(q)
    ensures EscapeQuotes(DoubleBackslashes(s), q)
         == EscapeChar(s[0], q) + EscapeQuotes(DoubleBackslashes(s[1..]), q)
  {
    var head := if s[0] == Backslash then [Backslash, Backslash] else [s[0]];
    assert DoubleBackslashes(s) == head + DoubleBackslashes(s[1..]);
    EscapeQuotesAppend(head, DoubleBackslashes(s[1..]), q);
    if s[0] == Backslash {
      EscapeQuotesOne(Backslash, q);
      EscapeQuotesAppend([Backslash], [Backslash], q);
      assert EscapeQuotes(head, q) == [Backslash, Backslash];
    } else {
      EscapeQuotesOne(s[0], q);
    }
  }

  /** The three passes, in the source's order, compute the one-pass reference. */
  lemma {:induction false} PassesMatchReference(s: string, q: char, nl: string)
    requires OrdinaryQuote(q)
    ensures ReplaceLineBreaks(EscapeQuotes(DoubleBackslashes(s), q), nl) == EscapeReference(s, q, nl)
  {
    if |s| == 0 {
    } else {
      EscapedHead(s, q);
      var x := EscapeQuotes(DoubleBackslashes(s[1..]), q);
      if s[0] == LF {
        assert ([LF] + x)[1..] == x;
        PassesMatchReference(s[1..], q, nl);
      } else if s[0] == CR && |s| >= 2 && s[1] == LF {
        EscapedHead(s[1..], q);
        assert s[1..][1..] == s[2..];
        var y := EscapeQuotes(DoubleBackslashes(s[2..]), q);
        assert [CR] + ([LF] + y) == [CR, LF] + y;
        assert ([CR, LF] + y)[2..] == y;
        PassesMatchReference(s[2..], q, nl);
      } else if s[0] == CR {
        if |s| >= 2 {
          EscapedHead(s[1..], q);
        }
        assert x == [] || x[0] != LF;
        assert ([CR] + x)[1..] == x;
        PassesMatchReference(s[1..], q, nl);
      } else {
        ReplaceLineBreaksPrefix(EscapeChar(s[0], q), x, nl);
        PassesMatchReference(s[1..], q, nl);
      }
    }
  }

  /** `escapeContent` as written equals the one-pass reference escaper. */
  lemma EscapeContentMatchesReference(s: string, q: char, indentString: string, indentGlobal: string)
    requires OrdinaryQuote(q)
    ensures EscapeContent(s, q, indentString, indentGlobal)
         == EscapeReference(s, q, Continuation(q, indentString, indentGlobal))
  {
    PassesMatchReference(s, q, Continuation(q, indentString, indentGlobal));
  }

  // ---------------------------------------------------------------------------
  // Basic behaviour

  lemma {:induction false} DoubleBackslashesIdentity(s: string)
    requires forall i :: 0 <= i < |s| ==> s[i] != Backslash
    ensures DoubleBackslashes(s) == s
  {
    if |s| > 0 {
      DoubleBackslashesIdentity(s[1..]);
    }
  }

  lemma {:induction false} EscapeQuotesIdentity(s: string, q: char)
    requires forall i :: 0 <= i < |s| ==> s[i] != q
    ensures EscapeQuotes(s, q) == s
  {
    if |s| > 0 {
      EscapeQuotesIdentity(s[1..], q);
    }
  }

  lemma {:induction false} ReplaceLineBreaksIdentity(s: string, nl: string)
    requires forall i :: 0 <= i < |s| ==> s[i] != LF
    ensures ReplaceLineBreaks(s, nl) == s
  {
    if |s| > 0 {
      ReplaceLineBreaksIdentity(s[1..], nl);
    }
  }

  /** Text holding no backslash, no quote character `q` and no line feed. */
  predicate CopiedVerbatim(t: string, q: char) {
    forall i :: 0 <= i < |t| ==> t[i] != Backslash && t[i] != q && t[i] != LF
  }

  /**
    Text without a backslash, the quote character or a line feed is copied
    unchanged (a carriage return not followed by a line feed included).
  */
  lemma EscapePlainText(t: string, q: char, indentString: string, indentGlobal: string)
    requires CopiedVerbatim(t, q)
    ensures EscapeContent(t, q, indentString, indentGlobal) == t
  {
    DoubleBackslashesIdentity(t);
    EscapeQuotesIdentity(t, q);
    ReplaceLineBreaksIdentity(t, Continuation(q, indentString, indentGlobal));
  }

  /** True when the text `a + b` has a CR LF pair straddling the boundary. */
  predicate SplitsLineBreak(a: string, b: string) {
    |a| > 0 && a[|a| - 1] == CR && |b| > 0 && b[0] == LF
  }

  lemma {:induction false} ReferenceAppend(a: string, b: string, q: char, nl: string)
    requires OrdinaryQuote(q) && !SplitsLineBreak(a, b)
    ensures EscapeReference(a + b, q, nl) == EscapeReference(a, q, nl) + EscapeReference(b, q, nl)
  {
    if |a| == 0 {
      assert a + b == b;
    } else if a[0] == LF {
      assert (a + b)[1..] == a[1..] + b;
      ReferenceAppend(a[1..], b, q, nl);
    } else if a[0] == CR && |a| >= 2 && a[1] == LF {
      assert (a + b)[2..] == a[2..] + b;
      ReferenceAppend(a[2..], b, q, nl);
    } else {
      assert (a + b)[1..] == a[1..] + b;
      assert !(|a| == 1 && |b| >= 1 && b[0] == LF && a[0] == CR);
      ReferenceAppend(a[1..], b, q, nl);
    }
  }

  /**
    The escaper works character by character: escaping a concatenation is the
    concatenation of the escapes, unless the cut falls inside a CR LF pair.
  */
  lemma EscapeContentAppend(a: string, b: string, q: char, indentString: string, indentGlobal: string)
    requires OrdinaryQuote(q) && !SplitsLineBreak(a, b)
    ensures EscapeContent(a + b, q, indentString, indentGlobal)
         == EscapeContent(a, q, indentString, indentGlobal) + EscapeContent(b, q, indentString, indentGlobal)
  {
    EscapeContentMatchesReference(a + b, q, indentString, indentGlobal);
    EscapeContentMatchesReference(a, q, indentString, indentGlobal);
    EscapeContentMatchesReference(b, q, indentString, indentGlobal);
    ReferenceAppend(a, b, q, Continuation(q, indentString, indentGlobal));
  }

  // ---------------------------------------------------------------------------
  // Raw line feeds in the output

  lemma {:induction false} OccurrencesAppend(a: string, b: string, c: char)
    ensures Occurrences(a + b, c) == Occurrences(a, c) + Occurrences(b, c)
  {
    if |a| == 0 {
      assert a + b == b;
    } else {
      assert (a + b)[1..] == a[1..] + b;
      OccurrencesAppend(a[1..], b, c);
    }
  }

  lemma {:induction false} NoLineFeedOccurrences(s: string)
    requires NoLineFeed(s)
    ensures Occurrences(s, LF) == 0
  {
    if |s| > 0 {
      NoLineFeedOccurrences(s[1..]);
    }
  }

  lemma ContinuationLineFeeds(q: char, indentString: string, indentGlobal: string)
    requires q != LF && NoLineFeed(indentString) && NoLineFeed(indentGlobal)
    ensures var nl := Continuation(q, indentString, indentGlobal);
      Occurrences(nl, LF) == 1 && SingleLineFeedAtFive(nl)
  {
    var nl := Continuation(q, indentString, indentGlobal);
    var tail := indentGlobal + indentString + [q];
    var head := [Backslash, 'n', q, ' ', '+'];
    assert nl == head + ([LF] + tail);
    assert NoLineFeed(tail);
    NoLineFeedOccurrences(tail);
    assert NoLineFeed(head);
    NoLineFeedOccurrences(head);
    assert ([LF] + tail)[1..] == tail;
    OccurrencesAppend(head, [LF] + tail, LF);
  }

  lemma {:induction false} ReferenceLineFeedCount(t: string, q: char, nl: string)
    requires OrdinaryQuote(q) && Occurrences(nl, LF) == 1
    ensures Occurrences(EscapeReference(t, q, nl), LF) == Occurrences(t, LF)
  {
    if |t| == 0 {
    } else if t[0] == LF {
      OccurrencesAppend(nl, EscapeReference(t[1..], q, nl), LF);
      ReferenceLineFeedCount(t[1..], q, nl);
    } else if t[0] == CR && |t| >= 2 && t[1] == LF {
      OccurrencesAppend(nl, EscapeReference(t[2..], q, nl), LF);
      assert t[1..][1..] == t[2..];
      ReferenceLineFeedCount(t[2..], q, nl);
    } else {
      OccurrencesAppend(EscapeChar(t[0], q), EscapeReference(t[1..], q, nl), LF);
      NoLineFeedOccurrences(EscapeChar(t[0], q));
      ReferenceLineFeedCount(t[1..], q, nl);
    }
  }

  /** The output holds exactly one raw line feed per line break of the input. */
  lemma EscapeContentLineFeedCount(t: string, q: char, indentString: string, indentGlobal: string)
    requires OrdinaryQuote(q) && NoLineFeed(indentString) && NoLineFeed(indentGlobal)
    ensures Occurrences(EscapeContent(t, q, indentString, indentGlobal), LF) == Occurrences(t, LF)
  {
    ContinuationLineFeeds(q, indentString, indentGlobal);
    EscapeContentMatchesReference(t, q, indentString, indentGlobal);
    ReferenceLineFeedCount(t, q, Continuation(q, indentString, indentGlobal));
  }

  /** The raw line feed at index `i` of `s` is the sixth character of a copy of `nl`. */
  predicate ContinuationAt(s: string, i: int, nl: string) {
    5 <= i && i - 5 + |nl| <= |s| && s[i - 5 .. i - 5 + |nl|] == nl
  }

  /** Every raw line feed of `out` is the line feed of a copy of `nl`. */
  predicate LineFeedsInContinuations(out: string, nl: string) {
    forall i :: 0 <= i < |out| && out[i] == LF ==> ContinuationAt(out, i, nl)
  }

  /** Shape of a continuation: its only line feed is its sixth character. */
  predicate SingleLineFeedAtFive(nl: string) {
    |nl| >= 6 && nl[5] == LF && forall j :: 0 <= j < |nl| && j != 5 ==> nl[j] != LF
  }

  /** A continuation found in `rest` is still found, shifted, behind `chunk`. */
  lemma ContinuationShift(chunk: string, rest: string, j: int, nl: string)
    requires ContinuationAt(rest, j, nl)
    ensures ContinuationAt(chunk + rest, j + |chunk|, nl)
  {
    var out := chunk + rest;
    var i := j + |chunk|;
    assert out[i - 5 .. i - 5 + |nl|] == rest[j - 5 .. j - 5 + |nl|];
  }

  lemma ContinuationsAppend(chunk: string, rest: string, nl: string)
    requires SingleLineFeedAtFive(nl) && (chunk == nl || NoLineFeed(chunk))
    requires LineFeedsInContinuations(rest, nl)
    ensures LineFeedsInContinuations(chunk + rest, nl)
  {
    var out := chunk + rest;
    forall i | 0 <= i < |out| && out[i] == LF
      ensures ContinuationAt(out, i, nl)
    {
      if i < |chunk| {
        assert chunk[i] == LF;
        assert chunk == nl && i == 5;
        assert out[0 .. |nl|] == nl;
      } else {
        assert rest[i - |chunk|] == LF;
        ContinuationShift(chunk, rest, i - |chunk|, nl);
      }
    }
  }

  lemma {:induction false} ReferenceLineFeedsInContinuations(t: string, q: char, nl: string)
    requires OrdinaryQuote(q) && SingleLineFeedAtFive(nl)
    ensures LineFeedsInContinuations(EscapeReference(t, q, nl), nl)
  {
    if |t| == 0 {
    } else if t[0] == LF {
      ReferenceLineFeedsInContinuations(t[1..], q, nl);
      ContinuationsAppend(nl, EscapeReference(t[1..], q, nl), nl);
    } else if t[0] == CR && |t| >= 2 && t[1] == LF {
      ReferenceLineFeedsInContinuations(t[2..], q, nl);
      ContinuationsAppend(nl, EscapeReference(t[2..], q, nl), nl);
    } else {
      ReferenceLineFeedsInContinuations(t[1..], q, nl);
      ContinuationsAppend(EscapeChar(t[0], q), EscapeReference(t[1..], q, nl), nl);
    }
  }

  /** Every raw line feed of the output sits inside a continuation sequence. */
  lemma EscapeContentLineFeedsInContinuations(t: string, q: char, indentString: string, indentGlobal: string)
    requires OrdinaryQuote(q) && NoLineFeed(indentString) && NoLineFeed(indentGlobal)
    ensures LineFeedsInContinuations(EscapeContent(t, q, indentString, indentGlobal), Continuation(q, indentString, indentGlobal))
  {
    ContinuationLineFeeds(q, indentString, indentGlobal);
    EscapeContentMatchesReference(t, q, indentString, indentGlobal);
    ReferenceLineFeedsInContinuations(t, q, Continuation(q, indentString, indentGlobal));
  }
}

=== FILE: example.dfy ===
/**
  A worked instance of the whole Grunt task: two plain templates under the default
  options of a target whose name holds no hyphen, with any host whose
  separator is `/` and whose line break is LF.
*/
module Example {
  import opened Results
  import opened Paths
  import opened CamelCase
  import opened Escaping
  import opened Entries
  import opened Bundle

  /** The line the `js` target emits for a plain template: `name["key"] = "content";` and a line feed. */
  function PlainLine(name: string, key: string, content: string): string {
    Assignment("", name, key, '"', "\"" + content + "\"", ";\n")
  }

  /** The escaped literal of plain text is the text between two quotes. */
  lemma PlainLiteral(content: string)
    requires CopiedVerbatim(content, '"')
    ensures ['"'] + EscapeContent(content, '"', "   ", "") + ['"'] == "\"" + content + "\""
  {
    EscapePlainText(content, '"', "   ", "");
  }

  /** A plain template compiles to one assignment of its text. */
  lemma PlainTemplate(name: string, key: string, path: string, host: Host)
    requires HyphenFree(name) && CopiedVerbatim(host.readFile(path), '"')
    ensures CompileTemplate(Name(name), key, path, DefaultOptions(name), host)
         == Success(PlainLine(name, key, host.readFile(path)))
  {
    var opts := DefaultOptions(name);
    var content := host.readFile(path);
    assert PrepareContent(content, path, opts, host) == Success(content);
    CamelCasedHyphenFree(name);
    PlainLiteral(content);
  }

  /** A plain template is keyed by its path relative to `src`. */
  lemma PlainEntry(name: string, path: string, host: Host)
    requires HyphenFree(name) && host.separator == "/" && CopiedVerbatim(host.readFile(path), '"')
    ensures CompileSource(path, Name(name), DefaultOptions(name), host)
         == Success(PlainLine(name, host.relative("src", path), host.readFile(path)))
  {
    var opts := DefaultOptions(name);
    assert SourceKey(path, opts, host) == host.relative("src", path);
    PlainTemplate(name, host.relative("src", path), path, host);
  }

  /** The `js` target declares the namespace as a `var`. */
  lemma VarDeclaration(name: string)
    requires name != "" && HyphenFree(name)
    ensures NamespaceDeclaration(Name(name), Js, "") == "var " + name + " = {};\n\n"
  {
    CamelCasedHyphenFree(name);
    assert "" + "var " + name + " = {}" + ";" + "\n\n" == "var " + name + " = {};\n\n";
  }

  /** A destination whose sources compile to `entries` is laid out around their join. */
  lemma BundleOfEntries(f: FileMapping, opts: Options, host: Host, entries: seq<string>)
    requires CompileAll(ExistingSources(f.src, host.fileExists), TargetNamespace(f, opts), opts, host) == Success(entries)
    ensures BuildBundle(f, opts, host)
         == Success(Header(opts.fileHeaderString) + opts.prefix
                    + NamespaceDeclaration(TargetNamespace(f, opts), ParseTarget(opts.target), opts.indentGlobal)
                    + Join(entries, host.lineBreak) + opts.suffix)
  {
  }

  /** Under the default options a destination is its namespace declaration followed by its joined entries. */
  lemma DefaultBundle(f: FileMapping, name: string, host: Host, entries: seq<string>)
    requires f.moduleName == Unset && name != ""
    requires CompileAll(ExistingSources(f.src, host.fileExists), Name(name), DefaultOptions(name), host) == Success(entries)
    ensures BuildBundle(f, DefaultOptions(name), host)
         == Success(NamespaceDeclaration(Name(name), Js, "") + Join(entries, host.lineBreak))
  {
    var opts := DefaultOptions(name);
    assert TargetNamespace(f, opts) == Name(name);
    BundleOfEntries(f, opts, host, entries);
    var decl := NamespaceDeclaration(Name(name), Js, "");
    var body := Join(entries, host.lineBreak);
    assert "" + "" + decl + body + "" == decl + body by {
      assert "" + "" + decl == decl;
    }
  }

  /** Two sources that compile give their two entries, in order. */
  lemma TwoCompiled(p1: string, p2: string, ns: Namespace, opts: Options, host: Host, e1: string, e2: string)
    requires CompileSource(p1, ns, opts, host) == Success(e1)
    requires CompileSource(p2, ns, opts, host) == Success(e2)
    ensures CompileAll([p1, p2], ns, opts, host) == Success([e1, e2])
  {
    assert CompileAll([], ns, opts, host) == Success([]);
    CompileAllCons(p2, [], ns, opts, host);
    assert [p2] + [] == [p2];
    assert [e2] + [] == [e2];
    CompileAllCons(p1, [p2], ns, opts, host);
    assert [p1] + [p2] == [p1, p2];
    assert [e1] + [e2] == [e1, e2];
  }

  /** Two entries joined by `sep`. */
  lemma JoinTwo(e1: string, e2: string, sep: string)
    ensures Join([e1, e2], sep) == e1 + sep + e2
  {
    JoinCons(e1, [e2], sep);
    assert [e1] + [e2] == [e1, e2];
  }

  /** Two existing sources that compile give the declaration, the first entry, a line break and the second. */
  lemma TwoSourceBundle(p1: string, p2: string, dest: string, name: string, host: Host, e1: string, e2: string)
    requires name != "" && host.fileExists(p1) && host.fileExists(p2)
    requires CompileSource(p1, Name(name), DefaultOptions(name), host) == Success(e1)
    requires CompileSource(p2, Name(name), DefaultOptions(name), host) == Success(e2)
    ensures BuildBundle(FileMapping([p1, p2], dest, Unset), DefaultOptions(name), host)
         == Success(NamespaceDeclaration(Name(name), Js, "") + (e1 + host.lineBreak + e2))
  {
    var f := FileMapping([p1, p2], dest, Unset);
    TwoCompiled(p1, p2, Name(name), DefaultOptions(name), host, e1, e2);
    ExistingSourcesAll(f.src, host.fileExists);
    JoinTwo(e1, e2, host.lineBreak);
    DefaultBundle(f, name, host, [e1, e2]);
  }

  /**
    Two existing plain templates under the default options of a target
    `name` give the declaration `var name = {};` and then one assignment per
    template, keyed by its path relative to `src`, in source order,
    separated by one line break.
  */
  lemma TwoPlainTemplates(name: string, p1: string, p2: string, dest: string, host: Host)
    requires name != "" && HyphenFree(name)
    requires host.separator == "/" && host.lineBreak == "\n"
    requires host.fileExists(p1) && host.fileExists(p2)
    requires CopiedVerbatim(host.readFile(p1), '"') && CopiedVerbatim(host.readFile(p2), '"')
    ensures BuildBundle(FileMapping([p1, p2], dest, Unset), DefaultOptions(name), host)
         == Success("var " + name + " = {};\n\n"
                    + (PlainLine(name, host.relative("src", p1), host.readFile(p1))
                       + "\n"
                       + PlainLine(name, host.relative("src", p2), host.readFile(p2))))
  {
    PlainEntry(name, p1, host);
    PlainEntry(name, p2, host);
    TwoSourceBundle(p1, p2, dest, name, host,
      PlainLine(name, host.relative("src", p1), host.readFile(p1)),
      PlainLine(name, host.relative("src", p2), host.readFile(p2)));
    VarDeclaration(name);
  }
}

=== FILE: literal.dfy ===
/**
  A small evaluator for the text the escaper emits: a concatenation
  `q…q + q…q + …` of string literals delimited by one quote character, as
  section 11.8.4 (String Literals) and section 12.7.3 (the addition operator)
  of ECMA-262 6th edition read it.  Only the fragment the generator produces
  is covered: the single-character escapes `\\`, `\"`, `\'` and `\n`,
  unescaped characters, and `+` between literals with blanks and line breaks
  around it.  Anything outside the fragment evaluates to `None`.
*/
module JsLiteral {
  import opened Results

  /** The two characters that delimit a JavaScript string literal. */
  predicate IsJsQuote(q: char) {
    q == '"' || q == '\''
  }

  /** LineTerminator of section 11.3: none may appear raw inside a string literal. */
  predicate IsLineTerminator(c: char) {
    c == '\n' || c == '\r' || c == '\U{2028}' || c == '\U{2029}'
  }

  /** The white space and line terminators the evaluator skips between tokens. */
  predicate IsGap(c: char) {
    c == ' ' || c == '\t' || c == '\n' || c == '\r'
  }

  /** The character value of a SingleEscapeCharacter that the fragment admits. */
  function SingleEscape(c: char): Option<char> {
    if c == '\\' then Some('\\')
    else if c == '"' then Some('"')
    else if c == '\'' then Some('\'')
    else if c == 'n' then Some('\n')
    else None
  }

  /** Prepends `c` to an evaluated string, keeping failure. */
  function Cons(c: char, rest: Option<string>): Option<string> {
    match rest
    case None => None
    case Some(v) => Some([c] + v)
  }

  /** The value of the source text `s` read from just after an opening quote `q`. */
  function EvalChars(s: string, q: char): Option<string>
    decreases |s|
  {
    if |s| == 0 then None
    else if s[0] == q then EvalGap(s[1..], q, false)
    else if s[0] == '\\' then
      if |s| < 2 then None
      else match SingleEscape(s[1])
        case None => None
        case Some(c) => Cons(c, EvalChars(s[2..], q))
    else if IsLineTerminator(s[0]) then None
    else Cons(s[0], EvalChars(s[1..], q))
  }

  /**
    The value of the source text `s` read just after a closing quote: either
    the end of the expression or `+` followed by a further literal; `plus`
    records that the `+` has been read.
  */
  function EvalGap(s: string, q: char, plus: bool): Option<string>
    decreases |s|
  {
    if |s| == 0 then (if plus then None else Some([]))
    else if IsGap(s[0]) then EvalGap(s[1..], q, plus)
    else if s[0] == '+' && !plus then EvalGap(s[1..], q, true)
    else if s[0] == q && plus then EvalChars(s[1..], q)
    else None
  }

  /** The string value of the expression `s` built from literals delimited by `q`. */
  function EvalLiteral(s: string, q: char): Option<string> {
    if IsJsQuote(q) && |s| > 0 && s[0] == q then EvalChars(s[1..], q) else None
  }
}

=== FILE: paths.dfy ===
/**
  Module keys: `normalizePath` and the key derivation of the Grunt task body.
  The platform separator `path.sep` is a parameter.
*/
module Paths {
  import opened Results

  /** Every backslash of `p` replaced by a forward slash. */
  function SlashBackslashes(p: string): (r: string)
    ensures |r| == |p|
    ensures forall i :: 0 <= i < |p| ==> r[i] == (if p[i] == '\\' then '/' else p[i])
  {
    if |p| == 0 then [] else [if p[0] == '\\' then '/' else p[0]] + SlashBackslashes(p[1..])
  }

  /** `normalizePath(p)` on a platform whose separator is `sep`. */
  function NormalizePath(p: string, sep: string): (r: string)
    ensures sep == "/" ==> r == p
    ensures |r| == |p|
    ensures sep != "/" ==> forall i :: 0 <= i < |r| ==> r[i] != '\\'
    ensures forall i :: 0 <= i < |p| && p[i] != '\\' ==> r[i] == p[i]
    ensures sep != "/" ==> forall i :: 0 <= i < |p| && p[i] == '\\' ==> r[i] == '/'
  {
    if sep != "/" then SlashBackslashes(p) else p
  }

  /** Normalising twice is normalising once. */
  lemma NormalizePathIdempotent(p: string, sep: string)
    ensures NormalizePath(NormalizePath(p, sep), sep) == NormalizePath(p, sep)
  {
    var r := NormalizePath(p, sep);
    if sep != "/" {
      assert forall i :: 0 <= i < |r| ==> NormalizePath(r, sep)[i] == r[i];
    }
  }

  /** On a backslash-separated platform the result holds no backslash and marks every former one with `/`. */
  lemma NormalizePathReplacesBackslashes(p: string, sep: string, i: nat)
    requires sep != "/" && i < |p| && p[i] == '\\'
    ensures NormalizePath(p, sep)[i] == '/'
  {
  }

  /**
    The module key of a source file: its path relative to the base, with
    separators normalised, passed through `rename` when one is configured.
  */
  function ModuleKey(relative: string, sep: string, rename: Option<string -> string>): (key: string)
    ensures rename.None? ==> key == NormalizePath(relative, sep) && |key| == |relative|
    ensures rename.None? && sep == "/" ==> key == relative
    ensures rename.Some? ==> key == rename.value(NormalizePath(relative, sep))
  {
    var normalized := NormalizePath(relative, sep);
    match rename
    case None => normalized
    case Some(f) => f(normalized)
  }
}

=== FILE: results.dfy ===
/** Failure-compatible wrappers shared by the whole model. */
module Results {

  /** An optional value. */
  datatype Option<+T> = None | Some(value: T)

  /** Either a computed value or the error that aborted the computation. */
  datatype Result<+R, +E> = Success(value: R) | Failure(error: E) {

    predicate IsFailure() {
      Failure?
    }

    function PropagateFailure<U>(): Result<U, E>
      requires Failure?
    {
      Failure(error)
    }

    function Extract(): R
      requires Success?
    {
      value
    }
  }
}

=== FILE: roundtrip.dfy ===
/**
  Evaluating the literal `q + escapeContent(T, q, indentString, indentGlobal) + q`
  gives back `T` with every CR LF turned into LF, exactly when `T` holds no
  line terminator the escaper leaves raw (a CR not followed by LF, U+2028 or
  U+2029).  With the word `undefined` as the global indent, as on the coffee
  path, a text with a line break gives no value at all.
*/
module RoundTrip {
  import opened Results
  import opened Escaping
  import opened JsLiteral

  /** `t` with each CR LF pair replaced by a single LF. */
  function NormalizeLineBreaks(t: string): string {
    if |t| == 0 then []
    else if t[0] == CR && |t| >= 2 && t[1] == LF then [LF] + NormalizeLineBreaks(t[2..])
    else [t[0]] + NormalizeLineBreaks(t[1..])
  }

  /** Indentation made of spaces and tabs only. */
  predicate Blank(w: string) {
    forall i :: 0 <= i < |w| ==> w[i] == ' ' || w[i] == '\t'
  }

  /** The character at `i` survives escaping as legal literal text. */
  predicate SafeAt(t: string, i: int)
    requires 0 <= i < |t|
  {
    t[i] != '\U{2028}' && t[i] != '\U{2029}' && (t[i] == CR ==> i + 1 < |t| && t[i + 1] == LF)
  }

  /** Every line terminator of `t` is a LF, possibly preceded by CR. */
  predicate LiteralSafe(t: string) {
    forall i :: 0 <= i < |t| ==> SafeAt(t, i)
  }

  /** Safety of `t` splits into safety of its first `k` characters and of the rest. */
  lemma SafeSplit(t: string, k: nat)
    requires k <= |t|
    ensures LiteralSafe(t) <==> (forall i :: 0 <= i < k ==> SafeAt(t, i)) && LiteralSafe(t[k..])
  {
    forall j | 0 <= j < |t| - k
      ensures SafeAt(t[k..], j) == SafeAt(t, j + k)
    {
    }
    if LiteralSafe(t) {
      forall j | 0 <= j < |t| - k
        ensures SafeAt(t[k..], j)
      {
        assert SafeAt(t, j + k);
      }
    }
    if (forall i :: 0 <= i < k ==> SafeAt(t, i)) && LiteralSafe(t[k..]) {
      forall i | 0 <= i < |t|
        ensures SafeAt(t, i)
      {
        if i >= k {
          assert SafeAt(t[k..], i - k);
        }
      }
    }
  }

  lemma {:induction false} GapSkip(w: string, rest: string, q: char, plus: bool)
    requires Blank(w)
    ensures EvalGap(w + rest, q, plus) == EvalGap(rest, q, plus)
  {
    if |w| == 0 {
      assert w + rest == rest;
    } else {
      assert (w + rest)[1..] == w[1..] + rest;
      GapSkip(w[1..], rest, q, plus);
    }
  }

  lemma EvalEscapeStep(c: char, y: string, q: char)
    requires IsJsQuote(q) && SingleEscape(c).Some?
    ensures EvalChars([Backslash, c] + y, q) == Cons(SingleEscape(c).value, EvalChars(y, q))
  {
    assert ([Backslash, c] + y)[2..] == y;
  }

  lemma EvalCloseStep(y: string, q: char)
    ensures EvalChars([q] + y, q) == EvalGap(y, q, false)
  {
    assert ([q] + y)[1..] == y;
  }

  lemma EvalGapStep(c: char, y: string, q: char, plus: bool)
    ensures IsGap(c) ==> EvalGap([c] + y, q, plus) == EvalGap(y, q, plus)
    ensures c == '+' && !plus ==> EvalGap([c] + y, q, plus) == EvalGap(y, q, true)
    ensures c == q && plus && !IsGap(c) ==> EvalGap([c] + y, q, plus) == EvalChars(y, q)
  {
    assert ([c] + y)[1..] == y;
  }

  /** Reading ` +`, a line feed and then `rest` after a closing quote. */
  lemma PlusLineStep(rest: string, q: char)
    ensures EvalGap([' ', '+', LF] + rest, q, false) == EvalGap(rest, q, true)
  {
    EvalGapStep(' ', ['+', LF] + rest, q, false);
    assert [' ', '+', LF] + rest == [' '] + (['+', LF] + rest);
    EvalGapStep('+', [LF] + rest, q, false);
    assert ['+', LF] + rest == ['+'] + ([LF] + rest);
    EvalGapStep(LF, rest, q, true);
  }

  /** The continuation text split at the points where the evaluator changes state. */
  lemma ContinuationParts(q: char, indentString: string, indentGlobal: string, y: string)
    ensures Continuation(q, indentString, indentGlobal) + y
         == [Backslash, 'n'] + ([q] + ([' ', '+', LF] + ((indentGlobal + indentString) + ([q] + y))))
  {
  }

  /** After a continuation sequence the literal goes on with one line feed more. */
  lemma ContinuationEval(q: char, indentString: string, indentGlobal: string, y: string)
    requires IsJsQuote(q) && Blank(indentString) && Blank(indentGlobal)
    ensures EvalChars(Continuation(q, indentString, indentGlobal) + y, q) == Cons(LF, EvalChars(y, q))
  {
    var w := indentGlobal + indentString;
    assert Blank(w);
    var tail := [q] + y;
    ContinuationParts(q, indentString, indentGlobal, y);
    EvalEscapeStep('n', [q] + ([' ', '+', LF] + (w + tail)), q);
    EvalCloseStep([' ', '+', LF] + (w + tail), q);
    PlusLineStep(w + tail, q);
    GapSkip(w, tail, q, true);
    EvalGapStep(q, y, q, true);
  }

  /** An escaped character other than a line terminator evaluates to itself. */
  lemma EscapeCharEval(c: char, y: string, q: char)
    requires IsJsQuote(q) && !IsLineTerminator(c)
    ensures EvalChars(EscapeChar(c, q) + y, q) == Cons(c, EvalChars(y, q))
  {
    if c == Backslash || c == q {
      EvalEscapeStep(c, y, q);
    } else {
      assert ([c] + y)[1..] == y;
    }
  }

  /** A raw line terminator inside a literal makes it ill-formed. */
  lemma RawTerminatorEval(c: char, y: string, q: char)
    requires IsJsQuote(q) && IsLineTerminator(c)
    ensures EvalChars(EscapeChar(c, q) + y, q) == None
  {
    assert EscapeChar(c, q) == [c];
  }

  /** The one-pass escape of safe text evaluates to the text, CR LF read as LF. */
  lemma {:induction false} ReferenceEvaluates(t: string, q: char, indentString: string, indentGlobal: string)
    requires IsJsQuote(q) && Blank(indentString) && Blank(indentGlobal) && LiteralSafe(t)
    ensures EvalChars(EscapeReference(t, q, Continuation(q, indentString, indentGlobal)) + [q], q)
         == Some(NormalizeLineBreaks(t))
  {
    var nl := Continuation(q, indentString, indentGlobal);
    if |t| == 0 {
      assert EscapeReference(t, q, nl) + [q] == [q];
    } else {
      var k := if t[0] == CR && |t| >= 2 && t[1] == LF then 2 else 1;
      SafeSplit(t, k);
      ReferenceEvaluates(t[k..], q, indentString, indentGlobal);
      var y := EscapeReference(t[k..], q, nl) + [q];
      if t[0] == LF || k == 2 {
        assert EscapeReference(t, q, nl) + [q] == nl + y;
        ContinuationEval(q, indentString, indentGlobal, y);
      } else {
        assert SafeAt(t, 0);
        assert EscapeReference(t, q, nl) + [q] == EscapeChar(t[0], q) + y;
        EscapeCharEval(t[0], y, q);
        assert NormalizeLineBreaks(t) == [t[0]] + NormalizeLineBreaks(t[1..]);
      }
    }
  }

  /** A raw line terminator left in the escaped text makes the literal ill-formed. */
  lemma {:induction false} ReferenceRejectsUnsafe(t: string, q: char, indentString: string, indentGlobal: string)
    requires IsJsQuote(q) && Blank(indentString) && Blank(indentGlobal) && !LiteralSafe(t)
    ensures EvalChars(EscapeReference(t, q, Continuation(q, indentString, indentGlobal)) + [q], q) == None
  {
    var nl := Continuation(q, indentString, indentGlobal);
    var k := if t[0] == CR && |t| >= 2 && t[1] == LF then 2 else 1;
    SafeSplit(t, k);
    var y := EscapeReference(t[k..], q, nl) + [q];
    if t[0] == LF || k == 2 {
      assert SafeAt(t, 0);
      if k == 2 {
        assert SafeAt(t, 1);
      }
      ReferenceRejectsUnsafe(t[k..], q, indentString, indentGlobal);
      assert EscapeReference(t, q, nl) + [q] == nl + y;
      ContinuationEval(q, indentString, indentGlobal, y);
    } else {
      assert EscapeReference(t, q, nl) + [q] == EscapeChar(t[0], q) + y;
      if SafeAt(t, 0) {
        ReferenceRejectsUnsafe(t[1..], q, indentString, indentGlobal);
        EscapeCharEval(t[0], y, q);
      } else {
        RawTerminatorEval(t[0], y, q);
      }
    }
  }

  /**
    The escaped literal evaluates to the text with CR LF read as LF when the
    text is safe, and to nothing otherwise.
  */
  lemma EscapedLiteralEvaluates(t: string, q: char, indentString: string, indentGlobal: string)
    requires IsJsQuote(q) && Blank(indentString) && Blank(indentGlobal)
    ensures LiteralSafe(t) ==>
      EvalLiteral([q] + EscapeContent(t, q, indentString, indentGlobal) + [q], q) == Some(NormalizeLineBreaks(t))
    ensures !LiteralSafe(t) ==>
      EvalLiteral([q] + EscapeContent(t, q, indentString, indentGlobal) + [q], q) == None
  {
    var e := EscapeContent(t, q, indentString, indentGlobal);
    EscapeContentMatchesReference(t, q, indentString, indentGlobal);
    assert ([q] + e + [q])[1..] == e + [q];
    if LiteralSafe(t) {
      ReferenceEvaluates(t, q, indentString, indentGlobal);
    } else {
      ReferenceRejectsUnsafe(t, q, indentString, indentGlobal);
    }
  }

  /** With `undefined` as the global indent a continuation no longer leads to a literal. */
  lemma UndefinedContinuationFails(q: char, indentString: string, y: string)
    requires IsJsQuote(q)
    ensures EvalChars(Continuation(q, indentString, "undefined") + y, q) == None
  {
    var rest := "undefined" + indentString + ([q] + y);
    ContinuationParts(q, indentString, "undefined", y);
    assert ("undefined" + indentString) + ([q] + y) == rest;
    EvalEscapeStep('n', [q] + ([' ', '+', LF] + rest), q);
    EvalCloseStep([' ', '+', LF] + rest, q);
    PlusLineStep(rest, q);
    assert rest[0] == 'u';
  }

  lemma {:induction false} ReferenceUndefinedFails(t: string, q: char, indentString: string)
    requires IsJsQuote(q) && !NoLineFeed(t)
    ensures EvalChars(EscapeReference(t, q, Continuation(q, indentString, "undefined")) + [q], q) == None
  {
    var nl := Continuation(q, indentString, "undefined");
    if t[0] == LF || (t[0] == CR && |t| >= 2 && t[1] == LF) {
      var k := if t[0] == LF then 1 else 2;
      assert EscapeReference(t, q, nl) + [q] == nl + (EscapeReference(t[k..], q, nl) + [q]);
      UndefinedContinuationFails(q, indentString, EscapeReference(t[k..], q, nl) + [q]);
    } else {
      var i :| 0 <= i < |t| && t[i] == LF;
      assert t[1..][i - 1] == LF;
      ReferenceUndefinedFails(t[1..], q, indentString);
      var chunk := EscapeChar(t[0], q);
      var y := EscapeReference(t[1..], q, nl) + [q];
      assert EscapeReference(t, q, nl) + [q] == chunk + y;
      if |chunk| == 2 {
        assert (chunk + y)[2..] == y;
      } else {
        assert (chunk + y)[1..] == y;
      }
    }
  }

  /**
    On the coffee path the global indent is the text `undefined`: a template
    with a line break then yields a literal that does not evaluate.
  */
  lemma UndefinedIndentBreaksLiteral(t: string, q: char, indentString: string)
    requires IsJsQuote(q) && !NoLineFeed(t)
    ensures EvalLiteral([q] + EscapeContent(t, q, indentString, "undefined") + [q], q) == None
  {
    var e := EscapeContent(t, q, indentString, "undefined");
    EscapeContentMatchesReference(t, q, indentString, "undefined");
    assert ([q] + e + [q])[1..] == e + [q];
    ReferenceUndefinedFails(t, q, indentString);
  }

  lemma {:induction false} NormalizeWithoutLineFeed(t: string)
    requires NoLineFeed(t)
    ensures NormalizeLineBreaks(t) == t
  {
    if |t| > 0 {
      assert t[0] != LF;
      assert NoLineFeed(t[1..]) by {
        forall i | 0 <= i < |t[1..]|
          ensures t[1..][i] != LF
        {
          assert t[i + 1] != LF;
        }
      }
      NormalizeWithoutLineFeed(t[1..]);
    }
  }

  lemma {:induction false} ReferenceWithoutLineFeed(t: string, q: char, nl1: string, nl2: string)
    requires NoLineFeed(t)
    ensures EscapeReference(t, q, nl1) == EscapeReference(t, q, nl2)
  {
    if |t| > 0 {
      assert t[0] != LF;
      assert NoLineFeed(t[1..]) by {
        forall i | 0 <= i < |t[1..]|
          ensures t[1..][i] != LF
        {
          assert t[i + 1] != LF;
        }
      }
      if |t| >= 2 {
        assert t[1] != LF;
      }
      ReferenceWithoutLineFeed(t[1..], q, nl1, nl2);
    }
  }

  /** Text without a line feed never reaches a continuation, so the indents do not matter. */
  lemma EscapeIgnoresGlobalIndent(t: string, q: char, indentString: string, g1: string, g2: string)
    requires OrdinaryQuote(q) && NoLineFeed(t)
    ensures EscapeContent(t, q, indentString, g1) == EscapeContent(t, q, indentString, g2)
  {
    EscapeContentMatchesReference(t, q, indentString, g1);
    EscapeContentMatchesReference(t, q, indentString, g2);
    ReferenceWithoutLineFeed(t, q, Continuation(q, indentString, g1), Continuation(q, indentString, g2));
  }
}
